=== FILE: README.md ===
# nRF Wi-Fi provisioning client: protocol engine model

This project models the protocol engine of a command-line client that
provisions Nordic nRF Wi-Fi devices over Bluetooth LE. The radio transport and
the protobuf codec are left abstract:

- **Transport.** Each retry loop reads a finite sequence of attempt outcomes:
  - did the connector return a client, and is it connected;
  - which services it exposes;
  - did `start_notify` raise;
  - did a write return, raise a Bleak error or raise another error;
  - is the client still connected;
  - which notification frames arrived, and what the Info read returned.
- **Codec.** It is a record of partial functions: Response and Result decoding, enum `Name` lookups, and UTF-8 conversion. It also holds the opcode constants, which are optional because some are probed with `hasattr` and a missing one otherwise raises.

Every operation returns its result together with a trace of side effects:

- a connector call;
- a disconnect;
- clearing the session's client;
- start/stop of notifications;
- a Control Point write;
- an Info read;
- clearing the Response/Result buffers;
- a backoff between retry attempts.

The modules follow the client's structure:

| module | models |
|---|---|
| `Text` | `bytes.hex()` with its inverse, Latin-1 decoding, ASCII lower-casing |
| `Codec` | the wire messages and the opaque protobuf/UTF-8 functions |
| `Trace` | side-effect actions, occurrence counting, action kinds |
| `Gatt` | `find_characteristics`, the characteristic resolver |
| `Session` | `_ensure_connected_and_ready`, the setup retry loop |
| `Subscribe` | `try_subscribe_notify` |
| `WriteRetry` | the Control Point write retry of `get_status` |
| `Dispatch` | `notification_handler`, `decode_response`, `decode_result` |
| `Exchange` | the single-write skeleton shared by scan, configure and forget |
| `Status` | `get_status`: per-attempt interpretation and the three-attempt retry |
| `Scan` | `scan_networks` and its projection of scan records |
| `Configure` | `configure_wifi` and `forget_config` |
| `Client` | `get_provisioning_client` |

Three behaviours of `nrf_wifi_provisioner_cli.py` shape the model:

- `get_status` does not retry at the operation level when no Response arrives. The first attempt that gets its request out returns `UNKNOWN_NO_RESPONSE`, or the Info fallback, at once (`Status.SilentPeerIsFinal`).
- Only `get_status` retries its write. Scan, configure and forget write once.
- The `finally` of scan, configure and forget has no `elif client` branch. A client that dropped by itself therefore stays in the session as a disconnected client (`Link(false)`). The next setup attempt clears it.

## Model

| member | source | states |
|---|---|---|
| Text.HexRoundTrip | nrf_wifi_provisioner_cli.py:566 | the lower-case hex rendering of a BSSID decodes back to the same bytes |
| Text.UnHexSound | nrf_wifi_provisioner_cli.py:726 | any string that decodes as hex is exactly the rendering of the bytes it decodes to |
| Text.HexInjective | nrf_wifi_provisioner_cli.py:726 | distinct BSSIDs are rendered as distinct strings |
| Text.Latin1RoundTrip | nrf_wifi_provisioner_cli.py:722 | Latin-1 decoding maps each byte to one code point and loses nothing |
| Text.DigitPrefixIgnoresCase | nrf_wifi_provisioner_cli.py:320-334 | for an all-digit prefix, matching the lower-cased UUID is the same as matching the UUID itself |
| Gatt.FindCharacteristics | nrf_wifi_provisioner_cli.py:307-353 | if listing the services raises, the roles are untouched and the result is false; otherwise the result is true iff Control Point and Data Out are bound, and every bound role holds a characteristic whose UUID has that role's prefix |
| Gatt.ResolveIsLastMatch | nrf_wifi_provisioner_cli.py:316-335 | each role ends up bound to the last matching characteristic among the provisioning services, in service order then characteristic order, or to none |
| Gatt.FoundIff | nrf_wifi_provisioner_cli.py:347-349 | the resolver succeeds iff some provisioning-service characteristic classifies as Control Point and some as Data Out; Info is optional |
| Gatt.FoundIgnoresPrevious | nrf_wifi_provisioner_cli.py:316-318 | roles bound by an earlier call do not affect the outcome, because the resolver resets all three first |
| Gatt.PrefixesAreCaseInsensitive | nrf_wifi_provisioner_cli.py:320-335 | the service and characteristic prefix tests accept upper- and lower-case UUIDs alike |
| Gatt.BindServicesClassified | nrf_wifi_provisioner_cli.py:319-335 | the elif chain never binds a characteristic to a role whose prefix it lacks |
| Session.Release | nrf_wifi_provisioner_cli.py:367-376 | discarding the client disconnects it iff it is connected and clears it iff one is held; nothing else happens |
| Session.AfterConnect | nrf_wifi_provisioner_cli.py:383-404 | an attempt succeeds iff the client exists, is connected and the resolver succeeds; on failure the client is disconnected iff it is still connected and is always cleared |
| Session.Attempt | nrf_wifi_provisioner_cli.py:362-404 | one setup attempt succeeds iff its outcome does; on success the client is connected and the roles are the resolver's |
| Session.AttemptStartsWithRelease | nrf_wifi_provisioner_cli.py:367-381 | every attempt first discards the previous client and then calls the connector |
| Session.AttemptDisconnects | nrf_wifi_provisioner_cli.py:367-404 | an attempt disconnects the client it found if that one is connected, plus the client it opened if it fails while that one is still connected |
| Session.EnsureFrom | nrf_wifi_provisioner_cli.py:362-413 | between one and max_retries attempts; success is decided by the last attempt, after all earlier ones failed; after a failure no client is held |
| Session.EnsureReady | nrf_wifi_provisioner_cli.py:355-413 | setup returns a connected client with Control Point and Data Out bound, or raises after exactly max_retries attempts |
| Session.EnsureReadyIsFirstSuccess | nrf_wifi_provisioner_cli.py:362-413 | setup succeeds iff one of the first max_retries outcomes succeeds, stops at the first one that does, and binds the roles resolved there |
| Session.EnsureReadyIgnoresState | nrf_wifi_provisioner_cli.py:367-376 | the verdict and resulting session do not depend on the client or roles held before |
| Session.EnsureReadyTrace | nrf_wifi_provisioner_cli.py:362-413 | one connector call per attempt, at most max_retries; a backoff only between attempts, never after the last |
| Session.EnsureReadyDiscardsFirst | nrf_wifi_provisioner_cli.py:367-381 | the first thing setup does is disconnect a connected client and clear a held one |
| Session.EnsureReadyKinds | nrf_wifi_provisioner_cli.py:362-413 | setup only connects, disconnects, clears the client and backs off |
| Subscribe.SubscribeFrom | nrf_wifi_provisioner_cli.py:918-948 | the remaining attempts stop at the first that does not raise, or return false at once on a disconnected client |
| Subscribe.TrySubscribeNotify | nrf_wifi_provisioner_cli.py:918-948 | at most `retries` calls; success means the last call did not raise and every earlier one did; every call found the client connected |
| Subscribe.SubscribedIff | nrf_wifi_provisioner_cli.py:918-948 | the subscription succeeds iff some attempt within the bound is the first to find the link up and not raise |
| Subscribe.DisconnectFailsFast | nrf_wifi_provisioner_cli.py:923-928 | a disconnected client ends the loop with false and no further calls |
| Subscribe.SubscribeTrace | nrf_wifi_provisioner_cli.py:929-948 | start_notify is called once per counted attempt; the backoffs number one per earlier failure after a success, one per call when a disconnect ends the loop, and one fewer than the retries when they run out |
| WriteRetry.WriteFrom | nrf_wifi_provisioner_cli.py:512-542 | the remaining writes stop at the first that returns, at a non-Bleak error, at a disconnect after a Bleak error, or at the last attempt |
| WriteRetry.WriteWithRetry | nrf_wifi_provisioner_cli.py:512-542 | one to three writes; each write before the last raised a Bleak error with the link still up; sent iff the last write returned; a last write that raised a Bleak error either found the link down after the backoff or was the third |
| WriteRetry.SentIff | nrf_wifi_provisioner_cli.py:512-542 | the write succeeds iff some write within the bound returns after only Bleak errors with the link up |
| WriteRetry.OtherFailureIsNotRetried | nrf_wifi_provisioner_cli.py:537-542 | a non-Bleak error is re-raised without a further write |
| WriteRetry.DisconnectAbortsRetry | nrf_wifi_provisioner_cli.py:522-532 | a disconnect seen after a Bleak error aborts the loop |
| WriteRetry.WriteTrace | nrf_wifi_provisioner_cli.py:512-542 | the request is written exactly as many times as the loop counts, at most three |
| Dispatch.DecodeResponse | nrf_wifi_provisioner_cli.py:435-444 | a decoded Response is appended to the Response buffer; a failed decode changes nothing |
| Dispatch.DecodeResult | nrf_wifi_provisioner_cli.py:446-455 | a decoded Result is appended to the Result buffer; a failed decode changes nothing |
| Dispatch.Handle | nrf_wifi_provisioner_cli.py:415-433 | an empty frame changes nothing; otherwise Response decoding is tried first and Result decoding only if it fails; exactly one buffer grows by one, or neither changes |
| Dispatch.Deliver | nrf_wifi_provisioner_cli.py:415-455 | the handler only appends: each buffer keeps its old contents as a prefix |
| Dispatch.DeliverAppends | nrf_wifi_provisioner_cli.py:415-455 | after a stream of frames each buffer is its old contents followed by the frames' Responses (respectively Results) in arrival order |
| Dispatch.DeliverGrowth | nrf_wifi_provisioner_cli.py:415-433 | the buffers grow by at most one element per frame |
| Dispatch.UndecodableFramesAreDropped | nrf_wifi_provisioner_cli.py:424-433 | frames that are empty or decode as neither leave both buffers unchanged |
| Dispatch.ResponsesInSnoc | nrf_wifi_provisioner_cli.py:435-444 | the last decodable frame supplies the last buffered Response |
| Exchange.Teardown | nrf_wifi_provisioner_cli.py:740-749 | the final cleanup stops notifications and disconnects only a connected client |
| Exchange.SingleExchange | nrf_wifi_provisioner_cli.py:674-749 | the buffers are read iff setup, subscription, request construction and the single write all succeed, and then hold exactly the notified frames; after setup the trace disconnects only in the teardown, once when setup returned a client still connected at the end, and then ends by clearing it; a disconnected client stays held iff setup returned one that dropped by itself |
| Exchange.WriteOnlyAfterSubscribe | nrf_wifi_provisioner_cli.py:677-705 | the request is written at most once, and only after setup succeeded and the Data Out subscription is confirmed |
| Status.ProjectStatus | nrf_wifi_provisioner_cli.py:551-584 | the state name comes from the response; SSID, BSSID and channel are present iff the Wi-Fi fields are; the SSID is the UTF-8 decoding of the SSID bytes; IP is the raw address; the BSSID decodes back to its bytes; an unnamed state raises |
| Status.Interpret | nrf_wifi_provisioner_cli.py:549-610 | only the last Response counts; without a status_response it is UNKNOWN/NoStatusResponse; with no Response, READ_INFO iff Info is bound, readable and decodes, else UNKNOWN_NO_RESPONSE, never raising |
| Status.Proceed | nrf_wifi_provisioner_cli.py:492-610 | a status is returned only after the subscription is confirmed, GET_STATUS exists and its write went out, and the GET_STATUS request is then in the trace |
| Status.TryStatus | nrf_wifi_provisioner_cli.py:487-610 | the attempt goes past setup iff setup succeeds, leaves setup's session, and only connects, disconnects, clears the client, subscribes, writes, reads Info, stops notifications or backs off |
| Status.StatusWriteOnlyAfterSubscribe | nrf_wifi_provisioner_cli.py:490-542 | any write in an attempt comes after setup returned a client and the Data Out subscription is confirmed |
| Status.TryStatusSetup | nrf_wifi_provisioner_cli.py:487-610 | whether setup returns a client depends on the connection outcomes alone; after setup the attempt does not disconnect |
| Status.TryStatusOutcome | nrf_wifi_provisioner_cli.py:487-610 | an operation attempt's outcome depends only on that attempt's transport outcomes, not on the session left by earlier attempts |
| Status.SilentPeerIsFinal | nrf_wifi_provisioner_cli.py:546-610 | when the request goes out but no Response arrives and Info gives nothing, the attempt returns UNKNOWN_NO_RESPONSE instead of raising |
| Status.Drop | nrf_wifi_provisioner_cli.py:612-654 | the except/finally cleanup disconnects iff the client is connected and clears it iff one is held |
| Status.StatusStep | nrf_wifi_provisioner_cli.py:487-654 | one attempt with its cleanup yields that attempt's own outcome, leaves no client in the session, and never clears the buffers; its Disconnects are setup's plus one when setup returned a client still connected at the end, and it then ends with that Disconnect and the clear |
| Status.Round | nrf_wifi_provisioner_cli.py:487-654 | one pass of the retry loop yields that attempt's outcome and adds a buffer clear only when it raises before the last attempt; the Disconnects it adds are exactly its setup's plus one when setup returned a client still connected at the end, and an attempt that returns then ends with that Disconnect and the clear |
| Status.Advance | nrf_wifi_provisioner_cli.py:612-640 | after an attempt, a raise before the last attempt adds exactly one buffer clear; the backoff and the drop of a held client add no Disconnect; a returning attempt's trace ends the pass |
| Status.Finish | nrf_wifi_provisioner_cli.py:612-654 | the outcome is kept and the link dropped; exactly one Disconnect is added iff setup returned a client still connected at teardown, and the trace then ends with that Disconnect and the clear |
| Status.GetStatus | nrf_wifi_provisioner_cli.py:477-658 | the result is the first non-raising attempt's outcome, after that many attempts, or ERROR after three raising attempts; the buffers are cleared once before each attempt; no client is left; the trace holds a Disconnect for every attempt whose client was still connected at its end |
| Scan.SsidEmptyIff | nrf_wifi_provisioner_cli.py:719-722 | the decoded SSID is empty iff the SSID bytes are empty |
| Scan.SsidFallbackKeepsBytes | nrf_wifi_provisioner_cli.py:719-722 | when UTF-8 decoding loses every character, the Latin-1 name encodes back to the exact bytes |
| Scan.ScannedNetwork | nrf_wifi_provisioner_cli.py:717-735 | a record yields a network iff its auth mode and band have names; the SSID is the UTF-8-then-Latin-1 decoding of the SSID bytes; auth mode and band are the enum names; the BSSID text decodes to the record's bytes; rssi and channel are the record's |
| Scan.ProjectScan | nrf_wifi_provisioner_cli.py:713-737 | a parse that succeeds yields as many networks as there are scan records with Wi-Fi information; with none it yields the empty list |
| Scan.ProjectScanIsPointwise | nrf_wifi_provisioner_cli.py:713-737 | parsing yields one network per Result with a scan record and Wi-Fi info, in buffer order, and fails iff some such record has an unnamed auth mode or band |
| Scan.ScanNetworks | nrf_wifi_provisioner_cli.py:660-749 | without START_SCAN nothing but a buffer clear happens; any failure before the results are read yields the empty list; after the clear and setup, the only Disconnect is the teardown's, made iff setup returned a client still connected at the end, after which the client is cleared; a dropped client stays held iff setup returned one |
| Scan.ScanParsesNotifiedResults | nrf_wifi_provisioner_cli.py:708-739 | a completed scan reports what the parsing makes of the Results notified during the wait |
| Scan.ScanReportsRecordsInOrder | nrf_wifi_provisioner_cli.py:713-739 | a completed scan reports one network per notified scan record in arrival order, or none if a name lookup fails |
| Configure.ResolveAuth | nrf_wifi_provisioner_cli.py:799-805 | a known mode name gives its value, an unknown one WPA2_PSK, and a non-mode attribute makes configuration fail |
| Configure.ConfigRequest | nrf_wifi_provisioner_cli.py:786-812 | the request carries the encoded SSID and passphrase, the volatility flag, the resolved auth mode, channel 0 and BAND_ANY; it exists iff encoding and auth resolution succeed |
| Configure.UnknownAuthFallsBack | nrf_wifi_provisioner_cli.py:799-808 | an unknown auth mode name still produces a request, with WPA2_PSK |
| Configure.Confirm | nrf_wifi_provisioner_cli.py:822-847 | success requires a completed exchange; after the buffer clear and setup, the only Disconnect is the teardown's, which then clears the client |
| Configure.ConfirmIff | nrf_wifi_provisioner_cli.py:822-837 | the verdict is true iff the exchange completes and the last notified Response echoes the opcode with SUCCESS |
| Configure.ConfigureWifiIff | nrf_wifi_provisioner_cli.py:751-847 | configure_wifi is true iff SET_CONFIG exists, the request can be built, the exchange completes and the last Response echoes SET_CONFIG with SUCCESS |
| Configure.ConfigureWifi | nrf_wifi_provisioner_cli.py:751-847 | without SET_CONFIG only the buffers are cleared and the result is false; otherwise no connected client is left and the teardown disconnects exactly a client still connected at the end |
| Configure.ForgetConfig | nrf_wifi_provisioner_cli.py:849-915 | without FORGET_CONFIG only the buffers are cleared and the result is false; otherwise no connected client is left and the teardown disconnects exactly a client still connected at the end |
| Configure.ForgetConfigIff | nrf_wifi_provisioner_cli.py:849-915 | forget_config is true iff FORGET_CONFIG exists, the exchange completes and the last Response echoes FORGET_CONFIG with SUCCESS |
| Configure.OnlyLastResponseCounts | nrf_wifi_provisioner_cli.py:822-826 | a later Response overrides any earlier acknowledgement |
| Client.GetProvisioningClient | nrf_wifi_provisioner_cli.py:1025-1034 | exactly the three names "ble", "softap" and "nfc" select a client, each its own transport; anything else is an error |
| Client.ModeNameRoundTrip | nrf_wifi_provisioner_cli.py:1025-1034 | every transport is selected by its own name and by no other |

## Left out

- Bleak I/O is represented only by outcome sequences. This covers connecting, service discovery, GATT reads and writes, `start_notify` and `stop_notify`.
- The two connectors, `_connect_with_pairing` and `_connect_hybrid`, are represented only by outcomes. The `bluetoothctl` pairing they use is subprocess and OS plumbing. The trace records which connector each attempt calls.
- All sleeps are left out: the backoffs, the settle delay and the fixed waits for notifications. The model assumes every notification sent in reply has arrived when the buffers are read. That is a timing assumption the protocol cannot guarantee.
- Notifications are delivered only between the write and the reading of the buffers. Late frames from an earlier attempt are not modelled.
- Protobuf encoding and decoding, enum `Name` lookups and UTF-8 decoding are uninterpreted functions. Generated code is not part of this model.
- `discover_devices`, the CLI commands, `main` and `generate_proto.py` are left out. They are scanner I/O, UI and build tooling.
- The SoftAP and NFC clients are unimplemented stubs. Only their selection by `get_provisioning_client` is modelled.
- `disconnect` and `stop_notify` are assumed not to raise. A failing `stop_notify` is caught in the source and changes nothing the model observes.
- The model assumes a client left over from an earlier `get_status` attempt is no longer connected. That attempt's cleanup disconnected it, or it had dropped.
- Upper-casing and lower-casing are modelled for ASCII letters only. The prefixes are all digits, so non-ASCII case mappings cannot change a match.
- Session.EnsureReady: requires `max_retries >= 1`. With zero the source falls through its loop and returns nothing, which no caller handles.
- Session.EnsureReady, Subscribe.TrySubscribeNotify, WriteRetry.WriteWithRetry: the outcome sequences must be at least as long as the retry bound. Missing outcomes are not given a meaning.
- Status.StatusStep: states only `held ==> r.holds` for whether a client is still referenced. The exact condition is left to `TryStatus`, to keep the retry loop's proof small.
- Status.GetStatus: the final session state is stated as holding no client. The roles left behind are not specified.
- Status.GetStatus: the Disconnects of the whole run are bounded from below by the teardowns of connected clients. The exact count per attempt is stated on `StatusStep`.

=== FILE: client.dfy ===
/**
 * `get_provisioning_client`: the transport named on the command line picks
 * the client. Only the BLE client implements the operations; the SoftAP and
 * NFC clients discover nothing and raise NotImplementedError for the rest.
 */
module Client {
  datatype Transport = Ble | SoftAp | Nfc

  datatype Selection =
    | Selected(transport: Transport)
    | UnknownMode(mode: string)   // ValueError

  function ModeName(t: Transport): string {
    match t
    case Ble => "ble"
    case SoftAp => "softap"
    case Nfc => "nfc"
  }

  /** The mode names are matched exactly: no case folding, no trimming. */
  function GetProvisioningClient(mode: string): (r: Selection)
    ensures r.Selected? <==> mode == "ble" || mode == "softap" || mode == "nfc"
    ensures r.Selected? ==> ModeName(r.transport) == mode
    ensures r.UnknownMode? ==> r.mode == mode
  {
    if mode == "ble" then Selected(Ble)
    else if mode == "softap" then Selected(SoftAp)
    else if mode == "nfc" then Selected(Nfc)
    else UnknownMode(mode)
  }

  /** Every transport is selected by its own name, and by no other. */
  lemma ModeNameRoundTrip(t: Transport, mode: string)
    ensures GetProvisioningClient(ModeName(t)) == Selected(t)
    ensures GetProvisioningClient(mode) == Selected(t) ==> mode == ModeName(t)
  {
  }
}

=== FILE: codec.dfy ===
/**
 * The wire messages of the provisioning protocol and the generated protobuf
 * code, kept opaque: decoding, enum names and UTF-8 conversion are function
 * values supplied by the caller, and the opcode constants are optional because
 * the client probes them with `hasattr`.
 */
module Codec {
  import opened Wrappers
  import opened Text

  /** WifiInfo; an optional field that is not set reads as its type's default. */
  datatype WifiInfo = WifiInfo(
    ssid: Option<Bytes>,
    bssid: Option<Bytes>,
    channel: Option<int>,
    auth: Option<int>,
    band: Option<int>)

  datatype StatusResponse = StatusResponse(state: int, wifi: Option<WifiInfo>, ipv4Addr: Option<Bytes>)

  /** The single reply to a Control Point write. */
  datatype Response = Response(opCode: int, status: int, statusResponse: Option<StatusResponse>)

  datatype ScanRecord = ScanRecord(wifi: Option<WifiInfo>, rssi: Option<int>)

  /** One streamed record of a long-running operation. */
  datatype Result = Result(scanRecord: Option<ScanRecord>)

  datatype Payload =
    | NoPayload
    | ScanParams(band: int, passive: bool, periodMs: int)
    | WifiConfig(ssid: Bytes, passphrase: Bytes, volatileMemory: bool, auth: int, channel: int, band: int)

  datatype Request = Request(opCode: int, payload: Payload)

  /** What `getattr(common_pb2.AuthMode, name)` yields. */
  datatype AuthLookup =
    | AuthValue(value: int)   // an enum value of that name
    | NoSuchMode              // AttributeError
    | NotAMode                // some other attribute of the enum wrapper (its assignment raises)

  datatype Codec = Codec(
    decodeResponse: Bytes -> Option<Response>,   // None when ParseFromString raises
    decodeResult: Bytes -> Option<Result>,
    resultText: Result -> string,                // str() of a decoded Result
    stateName: int -> Option<string>,            // ConnectionState.Name; None when it raises
    authName: int -> Option<string>,             // AuthMode.Name
    bandName: int -> Option<string>,             // Band.Name
    authByName: string -> AuthLookup,
    utf8Decode: Bytes -> string,                 // decode("utf-8", errors="ignore")
    utf8Encode: string -> Option<Bytes>,         // encode("utf-8"); None when it raises
    opGetStatus: Option<int>,
    opStartScan: Option<int>,
    opSetConfig: Option<int>,
    opForgetConfig: Option<int>,
    statusSuccess: int,
    authWpa2Psk: int,
    bandAny: int)

  /** A UTF-8 decoder that ignores errors yields nothing from nothing. */
  predicate DecodesEmptyToEmpty(c: Codec) {
    c.utf8Decode([]) == []
  }
}

=== FILE: configure.dfy ===
/**
 * `configure_wifi` and `forget_config`: a single SET_CONFIG or FORGET_CONFIG
 * exchange whose verdict is the last Response received, which must echo the
 * request's opcode and report SUCCESS. Every exception yields false.
 */
module Configure {
  import opened Wrappers
  import opened Text
  import opened Codec
  import opened Trace
  import opened Session
  import opened Dispatch
  import opened Exchange

  /**
   * The auth mode written into the request; None when the name resolves to
   * an attribute that is not a mode (its assignment raises). An unknown name
   * falls back to WPA2_PSK.
   */
  function ResolveAuth(c: Codec, name: string): (r: Option<int>)
    ensures r.None? <==> c.authByName(name).NotAMode?
    ensures c.authByName(name).AuthValue? ==> r == Some(c.authByName(name).value)
    ensures c.authByName(name).NoSuchMode? ==> r == Some(c.authWpa2Psk)
  {
    match c.authByName(name)
    case AuthValue(v) => Some(v)
    case NoSuchMode => Some(c.authWpa2Psk)
    case NotAMode => None
  }

  /** The SET_CONFIG request; None when encoding the SSID or passphrase or resolving the auth mode raises. */
  function ConfigRequest(c: Codec, op: int, ssid: string, password: string, authMode: string, volatile: bool): (r: Option<Request>)
    ensures r.Some? <==>
      c.utf8Encode(ssid).Some? && c.utf8Encode(password).Some? && !c.authByName(authMode).NotAMode?
    ensures r.Some? ==> r.value.opCode == op && r.value.payload.WifiConfig?
    ensures r.Some? ==>
      var p := r.value.payload;
      && Some(p.ssid) == c.utf8Encode(ssid)
      && Some(p.passphrase) == c.utf8Encode(password)
      && p.volatileMemory == volatile
      && Some(p.auth) == ResolveAuth(c, authMode)
      && p.channel == 0
      && p.band == c.bandAny
  {
    match (c.utf8Encode(password), c.utf8Encode(ssid), ResolveAuth(c, authMode))
    case (Some(pass), Some(name), Some(auth)) =>
      Some(Request(op, WifiConfig(name, pass, volatile, auth, 0, c.bandAny)))
    case _ => None
  }

  /**
   * An unknown auth mode name does not stop the request: it is sent with
   * WPA2_PSK and the caller's SSID and passphrase.
   */
  lemma UnknownAuthFallsBack(c: Codec, op: int, ssid: string, password: string, authMode: string, volatile: bool)
    requires c.authByName(authMode).NoSuchMode?
    requires c.utf8Encode(ssid).Some? && c.utf8Encode(password).Some?
    ensures var r := ConfigRequest(c, op, ssid, password, authMode, volatile);
      r.Some? && r.value.payload.auth == c.authWpa2Psk
  {
  }

  /** The last Response echoes `op` and reports SUCCESS. */
  predicate Acknowledged(c: Codec, responses: seq<Response>, op: int) {
    |responses| > 0
    && responses[|responses| - 1].opCode == op
    && responses[|responses| - 1].status == c.statusSuccess
  }

  datatype Verdict = Verdict(ok: bool, state: State, trace: seq<Action>)

  /** The part shared by both operations once the opcode is known to exist. */
  function Confirm(c: Codec, strategy: Strategy, st: State, op: int, request: Option<Request>, e: Exchange): (r: Verdict)
    requires Covers(e, 1)
    ensures r.ok ==> Completes(strategy, st, request, e)
    ensures r.state.link != Link(true)
    ensures |r.trace| > 0 && r.trace[0] == ClearBuffers
    ensures TornDown(strategy, st, e, r.trace[1..])
    ensures r.state.link == Link(false) <==>
      EnsureReady(strategy, DefaultMaxRetries, st, e.connects).ready && !e.connectedAtTeardown
  {
    var x := SingleExchange(c, strategy, st, request, e);
    Verdict(x.buffers.Some? && Acknowledged(c, x.buffers.value.responses, op), x.state, [ClearBuffers] + x.trace)
  }

  /**
   * The verdict is the acknowledgement of the Responses notified during the
   * wait: true exactly when the exchange completes and the last of them
   * echoes `op` with SUCCESS.
   */
  lemma ConfirmIff(c: Codec, strategy: Strategy, st: State, op: int, request: Option<Request>, e: Exchange)
    requires Covers(e, 1)
    ensures Confirm(c, strategy, st, op, request, e).ok <==>
      Completes(strategy, st, request, e) && Acknowledged(c, ResponsesIn(c, e.frames), op)
  {
    DeliverAppends(c, Empty, e.frames);
    assert Deliver(c, Empty, e.frames).responses == ResponsesIn(c, e.frames);
  }

  /** configure_wifi. */
  function ConfigureWifi(c: Codec, strategy: Strategy, st: State, ssid: string, password: string,
                         authMode: string, volatile: bool, e: Exchange): (r: Verdict)
    requires Covers(e, 1)
    ensures c.opSetConfig.None? ==> r == Verdict(false, st, [ClearBuffers])
    ensures |r.trace| > 0 && r.trace[0] == ClearBuffers
    ensures c.opSetConfig.Some? ==> TornDown(strategy, st, e, r.trace[1..])
    ensures c.opSetConfig.Some? ==> r.state.link != Link(true)
  {
    match c.opSetConfig
    case None => Verdict(false, st, [ClearBuffers])
    case Some(op) => Confirm(c, strategy, st, op, ConfigRequest(c, op, ssid, password, authMode, volatile), e)
  }

  /**
   * configure_wifi succeeds exactly when SET_CONFIG exists, the request can
   * be built, setup, subscription and the write succeed, and the last
   * Response notified echoes SET_CONFIG with SUCCESS.
   */
  lemma ConfigureWifiIff(c: Codec, strategy: Strategy, st: State, ssid: string, password: string,
                         authMode: string, volatile: bool, e: Exchange)
    requires Covers(e, 1)
    ensures ConfigureWifi(c, strategy, st, ssid, password, authMode, volatile, e).ok <==>
      && c.opSetConfig.Some?
      && Completes(strategy, st, ConfigRequest(c, c.opSetConfig.value, ssid, password, authMode, volatile), e)
      && Acknowledged(c, ResponsesIn(c, e.frames), c.opSetConfig.value)
  {
    if c.opSetConfig.Some? {
      ConfirmIff(c, strategy, st, c.opSetConfig.value,
        ConfigRequest(c, c.opSetConfig.value, ssid, password, authMode, volatile), e);
    }
  }

  /** forget_config. */
  function ForgetConfig(c: Codec, strategy: Strategy, st: State, e: Exchange): (r: Verdict)
    requires Covers(e, 1)
    ensures c.opForgetConfig.None? ==> r == Verdict(false, st, [ClearBuffers])
    ensures |r.trace| > 0 && r.trace[0] == ClearBuffers
    ensures c.opForgetConfig.Some? ==> TornDown(strategy, st, e, r.trace[1..])
    ensures c.opForgetConfig.Some? ==> r.state.link != Link(true)
  {
    match c.opForgetConfig
    case None => Verdict(false, st, [ClearBuffers])
    case Some(op) => Confirm(c, strategy, st, op, Some(Request(op, NoPayload)), e)
  }

  /**
   * forget_config succeeds exactly when FORGET_CONFIG exists, setup,
   * subscription and the write succeed, and the last Response notified
   * echoes FORGET_CONFIG with SUCCESS.
   */
  lemma ForgetConfigIff(c: Codec, strategy: Strategy, st: State, e: Exchange)
    requires Covers(e, 1)
    ensures ForgetConfig(c, strategy, st, e).ok <==>
      && c.opForgetConfig.Some?
      && Completes(strategy, st, Some(Request(c.opForgetConfig.value, NoPayload)), e)
      && Acknowledged(c, ResponsesIn(c, e.frames), c.opForgetConfig.value)
  {
    if c.opForgetConfig.Some? {
      ConfirmIff(c, strategy, st, c.opForgetConfig.value, Some(Request(c.opForgetConfig.value, NoPayload)), e);
    }
  }

  /**
   * Only the last Response counts: an earlier acknowledgement is overridden
   * by any later Response.
   */
  lemma OnlyLastResponseCounts(c: Codec, frames: seq<Bytes>, later: Bytes, op: int)
    requires c.decodeResponse(later).Some? && |later| > 0
    ensures Acknowledged(c, ResponsesIn(c, frames + [later]), op) <==>
      c.decodeResponse(later).value.opCode == op && c.decodeResponse(later).value.status == c.statusSuccess
  {
    ResponsesInSnoc(c, frames, later);
  }
}

=== FILE: dispatch.dfy ===
/**
 * The notification handler on Data Out: each frame is decoded first as a
 * Response, then as a Result, and appended to the matching buffer.
 */
module Dispatch {
  import opened Wrappers
  import opened Text
  import opened Codec

  /** The client's `responses` and `results` lists. */
  datatype Buffers = Buffers(responses: seq<Response>, results: seq<Result>)

  const Empty := Buffers([], [])

  /** decode_response: parse and, on success, append to `responses`. */
  function DecodeResponse(c: Codec, b: Buffers, data: Bytes): (r: (Option<Response>, Buffers))
    ensures r.0.Some? ==> r.1 == b.(responses := b.responses + [r.0.value])
    ensures r.0.None? ==> r.1 == b
    ensures r.0 == c.decodeResponse(data)
  {
    match c.decodeResponse(data)
    case Some(m) => (Some(m), b.(responses := b.responses + [m]))
    case None => (None, b)
  }

  /** decode_result: parse and, on success, append to `results`. */
  function DecodeResult(c: Codec, b: Buffers, data: Bytes): (r: (Option<Result>, Buffers))
    ensures r.0.Some? ==> r.1 == b.(results := b.results + [r.0.value])
    ensures r.0.None? ==> r.1 == b
    ensures r.0 == c.decodeResult(data)
  {
    match c.decodeResult(data)
    case Some(m) => (Some(m), b.(results := b.results + [m]))
    case None => (None, b)
  }

  /**
   * notification_handler. A decoded message is truthy, so Result decoding is
   * tried only when Response decoding failed.
   */
  function Handle(c: Codec, b: Buffers, data: Bytes): (r: Buffers)
    ensures |data| == 0 ==> r == b
    ensures |data| > 0 && c.decodeResponse(data).Some? ==>
      r.results == b.results && r.responses == b.responses + [c.decodeResponse(data).value]
    ensures |data| > 0 && c.decodeResponse(data).None? && c.decodeResult(data).Some? ==>
      r.responses == b.responses && r.results == b.results + [c.decodeResult(data).value]
    ensures |data| > 0 && c.decodeResponse(data).None? && c.decodeResult(data).None? ==> r == b
  {
    if |data| > 0 then
      var (response, b1) := DecodeResponse(c, b, data);
      if response.Some? then b1
      else
        var (result, b2) := DecodeResult(c, b1, data);
        b2
    else b
  }

  /** The handler applied to frames in arrival order. */
  function Deliver(c: Codec, b: Buffers, frames: seq<Bytes>): (r: Buffers)
    ensures b.responses <= r.responses && b.results <= r.results
    decreases |frames|
  {
    if frames == [] then b else Deliver(c, Handle(c, b, frames[0]), frames[1..])
  }

  // ---------------------------------------------------------------------------
  // Reference definition: what each frame contributes to each buffer
  // ---------------------------------------------------------------------------

  /** The Responses carried by `frames`, in order. */
  function ResponsesIn(c: Codec, frames: seq<Bytes>): seq<Response>
    decreases |frames|
  {
    if frames == [] then []
    else
      var f := frames[0];
      (if |f| > 0 && c.decodeResponse(f).Some? then [c.decodeResponse(f).value] else [])
      + ResponsesIn(c, frames[1..])
  }

  /** The Results carried by `frames` that are not also readable as Responses, in order. */
  function ResultsIn(c: Codec, frames: seq<Bytes>): seq<Result>
    decreases |frames|
  {
    if frames == [] then []
    else
      var f := frames[0];
      (if |f| > 0 && c.decodeResponse(f).None? && c.decodeResult(f).Some? then [c.decodeResult(f).value] else [])
      + ResultsIn(c, frames[1..])
  }

  /** A frame neither decoder accepts, or an empty one. */
  predicate Undecodable(c: Codec, f: Bytes) {
    |f| == 0 || (c.decodeResponse(f).None? && c.decodeResult(f).None?)
  }

  // ---------------------------------------------------------------------------
  // Lemmas
  // ---------------------------------------------------------------------------

  /**
   * Delivering frames only appends: the Responses they carry go to `responses`,
   * the remaining Results to `results`, in arrival order.
   */
  lemma {:induction false} DeliverAppends(c: Codec, b: Buffers, frames: seq<Bytes>)
    ensures Deliver(c, b, frames).responses == b.responses + ResponsesIn(c, frames)
    ensures Deliver(c, b, frames).results == b.results + ResultsIn(c, frames)
    decreases |frames|
  {
    if frames != [] {
      var f := frames[0];
      var b1 := Handle(c, b, f);
      DeliverAppends(c, b1, frames[1..]);
      var rs: seq<Response> := if |f| > 0 && c.decodeResponse(f).Some? then [c.decodeResponse(f).value] else [];
      var ts: seq<Result> := if |f| > 0 && c.decodeResponse(f).None? && c.decodeResult(f).Some? then [c.decodeResult(f).value] else [];
      assert b1.responses == b.responses + rs && b1.results == b.results + ts;
      assert ResponsesIn(c, frames) == rs + ResponsesIn(c, frames[1..]);
      assert ResultsIn(c, frames) == ts + ResultsIn(c, frames[1..]);
      assert b.responses + rs + ResponsesIn(c, frames[1..]) == b.responses + (rs + ResponsesIn(c, frames[1..]));
      assert b.results + ts + ResultsIn(c, frames[1..]) == b.results + (ts + ResultsIn(c, frames[1..]));
    }
  }

  /** Each frame adds at most one element to one buffer. */
  lemma {:induction false} DeliverGrowth(c: Codec, b: Buffers, frames: seq<Bytes>)
    ensures |Deliver(c, b, frames).responses| + |Deliver(c, b, frames).results|
      <= |b.responses| + |b.results| + |frames|
    decreases |frames|
  {
    if frames != [] {
      DeliverGrowth(c, Handle(c, b, frames[0]), frames[1..]);
    }
  }

  /** Undecodable and empty frames change nothing, wherever they arrive. */
  lemma {:induction false} UndecodableFramesAreDropped(c: Codec, b: Buffers, frames: seq<Bytes>)
    requires forall i :: 0 <= i < |frames| ==> Undecodable(c, frames[i])
    ensures Deliver(c, b, frames) == b
    decreases |frames|
  {
    if frames != [] {
      assert Handle(c, b, frames[0]) == b;
      UndecodableFramesAreDropped(c, b, frames[1..]);
    }
  }

  /** A frame delivered last contributes the last Response, if it decodes as one. */
  lemma {:induction false} ResponsesInSnoc(c: Codec, frames: seq<Bytes>, f: Bytes)
    ensures ResponsesIn(c, frames + [f]) ==
      ResponsesIn(c, frames) + (if |f| > 0 && c.decodeResponse(f).Some? then [c.decodeResponse(f).value] else [])
    decreases |frames|
  {
    if frames == [] {
      assert frames + [f] == [f];
      assert [f][1..] == [];
    } else {
      assert (frames + [f])[0] == frames[0];
      assert (frames + [f])[1..] == frames[1..] + [f];
      ResponsesInSnoc(c, frames[1..], f);
    }
  }
}

=== FILE: exchange.dfy ===
/**
 * The request/response skeleton shared by `scan_networks`, `configure_wifi`
 * and `forget_config`: set up the session, subscribe to Data Out, write the
 * request once, let the notifications fill the buffers, and in `finally`
 * stop notifications and disconnect a client that is still connected.
 */
module Exchange {
  import opened Wrappers
  import opened Text
  import opened Codec
  import opened Gatt
  import opened Trace
  import opened Session
  import opened Subscribe
  import opened WriteRetry
  import opened Dispatch

  /**
   * Everything the transport does during one operation attempt: the setup
   * attempts, the subscription attempts, the write outcomes, the frames
   * notified before the buffers are read, the Info read (None if it raises)
   * and whether the client is connected when the operation tears down.
   */
  datatype Exchange = Exchange(
    connects: seq<ConnectOutcome>,
    subscribes: seq<SubscribeAttempt>,
    writes: seq<WriteOutcome>,
    frames: seq<Bytes>,
    infoRead: Option<Bytes>,
    connectedAtTeardown: bool)

  /** The outcome sequences are long enough for the default bounds and `writes` write attempts. */
  predicate Covers(e: Exchange, writes: nat) {
    && DefaultMaxRetries <= |e.connects|
    && DefaultRetries <= |e.subscribes|
    && writes <= |e.writes|
  }

  /** Setup never writes a request. */
  lemma EnsureReadyWritesNothing(strategy: Strategy, maxRetries: nat, st: State, outcomes: seq<ConnectOutcome>, request: Request)
    requires 1 <= maxRetries <= |outcomes|
    ensures Write(request) !in EnsureReady(strategy, maxRetries, st, outcomes).trace
  {
    var t := EnsureReady(strategy, maxRetries, st, outcomes).trace;
    EnsureReadyKinds(strategy, maxRetries, st, outcomes);
    Outside(t, SetupKinds, Write(request));
    CountZero(t, Write(request));
  }

  /** The `finally` of the single-write operations, for a client that setup returned. */
  function Teardown(connected: bool, roles: Roles): (r: seq<Action>)
    ensures Disconnect in r <==> connected
    ensures StopNotify in r <==> connected && roles.dataOut.Some?
    ensures connected ==> r[|r| - 1] == ClearClient
    ensures Within(r, TeardownKinds)
  {
    if connected then
      (if roles.dataOut.Some? then [StopNotify] else []) + [Disconnect, ClearClient]
    else []
  }

  /** The teardown disconnects once when it finds the client connected, and never otherwise. */
  lemma TeardownDisconnects(connected: bool, roles: Roles)
    ensures Count(Teardown(connected, roles), Disconnect) == if connected then 1 else 0
    ensures var t := Teardown(connected, roles);
      connected ==> |t| >= 2 && t[|t| - 2..] == [Disconnect, ClearClient]
  {
    if connected {
      var pre: seq<Action> := if roles.dataOut.Some? then [StopNotify] else [];
      assert Teardown(connected, roles) == pre + [Disconnect] + [ClearClient];
      CountZero(pre, Disconnect);
      Count3(pre, [Disconnect], [ClearClient], Disconnect);
      CountOne(Disconnect, Disconnect);
      CountOne(ClearClient, Disconnect);
    }
  }

  /**
   * Setup returns a client within the retry bound, and that client is still
   * connected when the operation tears down. Which attempt succeeds depends
   * on the connection outcomes alone, not on the session before.
   */
  predicate StillConnected(e: Exchange)
    requires Covers(e, 1)
  {
    FirstSuccess(e.connects, DefaultMaxRetries) < DefaultMaxRetries && e.connectedAtTeardown
  }

  /**
   * After setup, `t` disconnects only in the teardown: once when it finds the
   * client still connected, and then it ends by dropping the client.
   */
  predicate TornDown(strategy: Strategy, st: State, e: Exchange, t: seq<Action>)
    requires Covers(e, 1)
  {
    && Count(t, Disconnect) ==
         Count(EnsureReady(strategy, DefaultMaxRetries, st, e.connects).trace, Disconnect)
         + (if StillConnected(e) then 1 else 0)
    && (StillConnected(e) ==> |t| > 0 && t[|t| - 1] == ClearClient)
  }

  /** Subscribing and writing never disconnect, so only the teardown adds a Disconnect to setup's. */
  lemma ExchangeDisconnects(setup: seq<Action>, sub: seq<Action>, mid: seq<Action>, connected: bool, roles: Roles)
    requires Within(sub, SubscribeKinds) && Disconnect !in mid
    ensures var t := setup + sub + mid + Teardown(connected, roles);
      && Count(t, Disconnect) == Count(setup, Disconnect) + (if connected then 1 else 0)
      && (connected ==> t[|t| - 1] == ClearClient)
  {
    Outside(sub, SubscribeKinds, Disconnect);
    CountZero(mid, Disconnect);
    TeardownDisconnects(connected, roles);
    CountAppend(setup + sub + mid, Teardown(connected, roles), Disconnect);
    Count3(setup, sub, mid, Disconnect);
  }

  /**
   * `buffers` is None when an exception ends the attempt before the wait for
   * notifications; `request` is None when building the request raises.
   */
  datatype Exchanged = Exchanged(buffers: Option<Buffers>, state: State, trace: seq<Action>)

  /** The attempt completes: setup, subscription, request and the single write all succeed. */
  predicate Completes(strategy: Strategy, st: State, request: Option<Request>, e: Exchange)
    requires Covers(e, 1)
  {
    && EnsureReady(strategy, DefaultMaxRetries, st, e.connects).ready
    && TrySubscribeNotify(DefaultRetries, e.subscribes).subscribed
    && request.Some?
    && e.writes[0].Written?
  }

  function SingleExchange(c: Codec, strategy: Strategy, st: State, request: Option<Request>, e: Exchange): (r: Exchanged)
    requires Covers(e, 1)
    ensures r.buffers.Some? <==> Completes(strategy, st, request, e)
    ensures r.buffers.Some? ==> r.buffers.value == Deliver(c, Empty, e.frames)
    ensures r.state.link != Link(true)
    ensures r.state.link == Link(false) <==>
      EnsureReady(strategy, DefaultMaxRetries, st, e.connects).ready && !e.connectedAtTeardown
    ensures TornDown(strategy, st, e, r.trace)
  {
    var setup := EnsureReady(strategy, DefaultMaxRetries, st, e.connects);
    EnsureReadyIsFirstSuccess(strategy, DefaultMaxRetries, st, e.connects);
    if !setup.ready then Exchanged(None, setup.state, setup.trace)
    else
      var sub := TrySubscribeNotify(DefaultRetries, e.subscribes);
      SubscribeKindsOnly(DefaultRetries, e.subscribes);
      var attempt: (Option<Buffers>, seq<Action>) :=
        if !sub.subscribed || request.None? then (None, [])
        else if e.writes[0].Written? then (Some(Deliver(c, Empty, e.frames)), [Write(request.value)])
        else (None, [Write(request.value)]);
      var roles := setup.state.roles;
      var link := if e.connectedAtTeardown then NoLink else Link(false);
      ExchangeDisconnects(setup.trace, sub.trace, attempt.1, e.connectedAtTeardown, roles);
      Exchanged(attempt.0, State(link, roles),
        setup.trace + sub.trace + attempt.1 + Teardown(e.connectedAtTeardown, roles))
  }

  /**
   * A request is written at most once, and only after setup succeeded and the
   * Data Out subscription is confirmed.
   */
  lemma WriteOnlyAfterSubscribe(c: Codec, strategy: Strategy, st: State, request: Option<Request>, e: Exchange)
    requires Covers(e, 1) && request.Some?
    ensures var r := SingleExchange(c, strategy, st, request, e);
      && Count(r.trace, Write(request.value)) <= 1
      && (Write(request.value) in r.trace ==>
            EnsureReady(strategy, DefaultMaxRetries, st, e.connects).ready
            && TrySubscribeNotify(DefaultRetries, e.subscribes).subscribed)
  {
    var w := Write(request.value);
    var r := SingleExchange(c, strategy, st, request, e);
    var setup := EnsureReady(strategy, DefaultMaxRetries, st, e.connects);
    EnsureReadyKinds(strategy, DefaultMaxRetries, st, e.connects);
    Outside(setup.trace, SetupKinds, w);
    if setup.ready {
      var sub := TrySubscribeNotify(DefaultRetries, e.subscribes);
      SubscribeKindsOnly(DefaultRetries, e.subscribes);
      Outside(sub.trace, SubscribeKinds, w);
      var mid: seq<Action> := if sub.subscribed then [w] else [];
      var down := Teardown(e.connectedAtTeardown, setup.state.roles);
      Outside(down, TeardownKinds, w);
      assert r.trace == setup.trace + sub.trace + mid + down;
      CountAppend(setup.trace, sub.trace, w);
      OnlyInMiddle(setup.trace + sub.trace, mid, down, w);
    } else {
      CountZero(setup.trace, w);
    }
  }

  /** An action absent from both ends of a trace occurs only where the middle puts it. */
  lemma OnlyInMiddle(pre: seq<Action>, mid: seq<Action>, post: seq<Action>, a: Action)
    requires Count(pre, a) == 0 && Count(post, a) == 0 && (mid == [] || mid == [a])
    ensures Count(pre + mid + post, a) <= 1
    ensures a in pre + mid + post ==> mid == [a]
  {
    Count3(pre, mid, post, a);
    CountOne(a, a);
    CountZero(pre + mid + post, a);
  }
}

=== FILE: gatt.dfy ===
/**
 * The characteristic resolver: binds the Control Point, Data Out and Info
 * roles from the GATT service table of a connected peripheral (the
 * service/characteristic model of the Bluetooth Core Specification, Vol 3,
 * Part G). Identifiers are compared case-insensitively by prefix.
 */
module Gatt {
  import opened Wrappers
  import opened Text

  /** A characteristic; the attribute handle tells apart two with the same UUID. */
  datatype Characteristic = Characteristic(handle: int, uuid: string)

  datatype Service = Service(uuid: string, characteristics: seq<Characteristic>)

  datatype Role = ControlPoint | DataOut | Info

  datatype Roles = Roles(
    controlPoint: Option<Characteristic>,
    dataOut: Option<Characteristic>,
    info: Option<Characteristic>)

  const ServicePrefix: string := "14387800"
  const ControlPointPrefix: string := "14387802"
  const DataOutPrefix: string := "14387803"
  const InfoPrefix: string := "14387801"

  const Unbound := Roles(None, None, None)

  function RoleOf(r: Roles, role: Role): Option<Characteristic> {
    match role
    case ControlPoint => r.controlPoint
    case DataOut => r.dataOut
    case Info => r.info
  }

  /** The resolver's success condition: Info is optional. */
  predicate Ready(r: Roles) {
    r.controlPoint.Some? && r.dataOut.Some?
  }

  predicate IsProvisioningService(s: Service) {
    StartsWith(Lower(s.uuid), ServicePrefix)
  }

  /** The role a characteristic of the provisioning service takes, tried in the order the client checks the prefixes. */
  function Classify(c: Characteristic): Option<Role> {
    var u := Lower(c.uuid);
    if StartsWith(u, ControlPointPrefix) then Some(ControlPoint)
    else if StartsWith(u, DataOutPrefix) then Some(DataOut)
    else if StartsWith(u, InfoPrefix) then Some(Info)
    else None
  }

  /** Assigns `c` to its role, overwriting an earlier binding of that role. */
  function Bind(r: Roles, c: Characteristic): Roles {
    match Classify(c)
    case Some(ControlPoint) => r.(controlPoint := Some(c))
    case Some(DataOut) => r.(dataOut := Some(c))
    case Some(Info) => r.(info := Some(c))
    case None => r
  }

  /** The inner loop: characteristics of one service, first to last. */
  function BindAll(r: Roles, chars: seq<Characteristic>): Roles
    decreases |chars|
  {
    if chars == [] then r else BindAll(Bind(r, chars[0]), chars[1..])
  }

  /** The outer loop: services in table order; only provisioning services contribute. */
  function BindServices(r: Roles, services: seq<Service>): Roles
    decreases |services|
  {
    if services == [] then r
    else
      var s := services[0];
      BindServices(if IsProvisioningService(s) then BindAll(r, s.characteristics) else r, services[1..])
  }

  /** The roles bound from a service table after all three were reset. */
  function Resolve(services: seq<Service>): Roles {
    BindServices(Unbound, services)
  }

  datatype Resolution = Resolution(roles: Roles, found: bool)

  /**
   * find_characteristics. `table` is `None` when reading the service table
   * raises; the roles are then left as they were and the answer is false.
   */
  function FindCharacteristics(prev: Roles, table: Option<seq<Service>>): (r: Resolution)
    ensures table.None? ==> r.roles == prev && !r.found
    ensures table.Some? ==> (r.found <==> Ready(r.roles))
    ensures table.Some? ==> forall role :: RoleOf(r.roles, role).Some? ==> Classify(RoleOf(r.roles, role).value) == Some(role)
  {
    match table
    case None => Resolution(prev, false)
    case Some(services) =>
      BindServicesClassified(Unbound, services);
      var roles := Resolve(services);
      Resolution(roles, Ready(roles))
  }

  // ---------------------------------------------------------------------------
  // Reference definition: the last characteristic of each role
  // ---------------------------------------------------------------------------

  /** The characteristics of all provisioning services, in table order. */
  function ProvisioningCharacteristics(services: seq<Service>): seq<Characteristic>
    decreases |services|
  {
    if services == [] then []
    else
      (if IsProvisioningService(services[0]) then services[0].characteristics else [])
      + ProvisioningCharacteristics(services[1..])
  }

  /** The index of the last characteristic classified as `role`, or -1 if there is none. */
  function LastIndexOf(chars: seq<Characteristic>, role: Role): (k: int)
    ensures -1 <= k < |chars|
    ensures k >= 0 ==> Classify(chars[k]) == Some(role)
    ensures forall j :: k < j < |chars| ==> Classify(chars[j]) != Some(role)
    decreases |chars|
  {
    if chars == [] then -1
    else if Classify(chars[|chars| - 1]) == Some(role) then |chars| - 1
    else LastIndexOf(chars[..|chars| - 1], role)
  }

  function LastOf(chars: seq<Characteristic>, role: Role): Option<Characteristic> {
    var k := LastIndexOf(chars, role);
    if k < 0 then None else Some(chars[k])
  }

  // ---------------------------------------------------------------------------
  // Lemmas
  // ---------------------------------------------------------------------------

  lemma BindClassified(r: Roles, c: Characteristic)
    requires forall role :: RoleOf(r, role).Some? ==> Classify(RoleOf(r, role).value) == Some(role)
    ensures forall role :: RoleOf(Bind(r, c), role).Some? ==> Classify(RoleOf(Bind(r, c), role).value) == Some(role)
  {
  }

  lemma {:induction false} BindAllClassified(r: Roles, chars: seq<Characteristic>)
    requires forall role :: RoleOf(r, role).Some? ==> Classify(RoleOf(r, role).value) == Some(role)
    ensures forall role :: RoleOf(BindAll(r, chars), role).Some? ==> Classify(RoleOf(BindAll(r, chars), role).value) == Some(role)
    decreases |chars|
  {
    if chars != [] {
      BindClassified(r, chars[0]);
      BindAllClassified(Bind(r, chars[0]), chars[1..]);
    }
  }

  lemma {:induction false} BindServicesClassified(r: Roles, services: seq<Service>)
    requires forall role :: RoleOf(r, role).Some? ==> Classify(RoleOf(r, role).value) == Some(role)
    ensures forall role :: RoleOf(BindServices(r, services), role).Some? ==> Classify(RoleOf(BindServices(r, services), role).value) == Some(role)
    decreases |services|
  {
    if services != [] {
      var s := services[0];
      if IsProvisioningService(s) {
        BindAllClassified(r, s.characteristics);
      }
      BindServicesClassified(if IsProvisioningService(s) then BindAll(r, s.characteristics) else r, services[1..]);
    }
  }

  lemma {:induction false} BindAllSnoc(r: Roles, chars: seq<Characteristic>, c: Characteristic)
    ensures BindAll(r, chars + [c]) == Bind(BindAll(r, chars), c)
    decreases |chars|
  {
    if chars == [] {
      assert [c][1..] == [];
    } else {
      assert (chars + [c])[1..] == chars[1..] + [c];
      BindAllSnoc(Bind(r, chars[0]), chars[1..], c);
    }
  }

  lemma {:induction false} BindAllAppend(r: Roles, a: seq<Characteristic>, b: seq<Characteristic>)
    ensures BindAll(r, a + b) == BindAll(BindAll(r, a), b)
    decreases |a|
  {
    if a == [] {
      assert a + b == b;
    } else {
      assert (a + b)[1..] == a[1..] + b;
      BindAllAppend(Bind(r, a[0]), a[1..], b);
    }
  }

  /** The inner loop leaves each role bound to the last characteristic of that role, if any. */
  lemma {:induction false} BindAllIsLastOf(r: Roles, chars: seq<Characteristic>, role: Role)
    ensures RoleOf(BindAll(r, chars), role) == (if LastIndexOf(chars, role) < 0 then RoleOf(r, role) else LastOf(chars, role))
    decreases |chars|
  {
    if chars != [] {
      var init := chars[..|chars| - 1];
      var c := chars[|chars| - 1];
      assert chars == init + [c];
      BindAllSnoc(r, init, c);
      BindAllIsLastOf(r, init, role);
      if Classify(c) != Some(role) {
        assert LastIndexOf(chars, role) == LastIndexOf(init, role);
      }
    }
  }

  /** Filtering services first and then binding gives the same roles as the nested loops. */
  lemma {:induction false} BindServicesFlattens(r: Roles, services: seq<Service>)
    ensures BindServices(r, services) == BindAll(r, ProvisioningCharacteristics(services))
    decreases |services|
  {
    if services != [] {
      var s := services[0];
      var own := if IsProvisioningService(s) then s.characteristics else [];
      BindAllAppend(r, own, ProvisioningCharacteristics(services[1..]));
      BindServicesFlattens(if IsProvisioningService(s) then BindAll(r, s.characteristics) else r, services[1..]);
      if !IsProvisioningService(s) {
        assert BindAll(r, own) == r;
      }
    }
  }

  /**
   * The resolver binds each role to the last characteristic with that role's
   * prefix among the provisioning services' characteristics (a later match
   * overwrites an earlier one), and to nothing when there is none.
   */
  lemma ResolveIsLastMatch(services: seq<Service>, role: Role)
    ensures RoleOf(Resolve(services), role) == LastOf(ProvisioningCharacteristics(services), role)
  {
    BindServicesFlattens(Unbound, services);
    BindAllIsLastOf(Unbound, ProvisioningCharacteristics(services), role);
  }

  /**
   * find_characteristics succeeds exactly when some provisioning service offers
   * a Control Point and some offers a Data Out characteristic; Info is optional.
   */
  lemma FoundIff(prev: Roles, services: seq<Service>)
    ensures FindCharacteristics(prev, Some(services)).found <==>
      (exists i :: 0 <= i < |ProvisioningCharacteristics(services)| && Classify(ProvisioningCharacteristics(services)[i]) == Some(ControlPoint))
      && (exists i :: 0 <= i < |ProvisioningCharacteristics(services)| && Classify(ProvisioningCharacteristics(services)[i]) == Some(DataOut))
  {
    var chars := ProvisioningCharacteristics(services);
    ResolveIsLastMatch(services, ControlPoint);
    ResolveIsLastMatch(services, DataOut);
    if exists i :: 0 <= i < |chars| && Classify(chars[i]) == Some(ControlPoint) {
      var i :| 0 <= i < |chars| && Classify(chars[i]) == Some(ControlPoint);
      assert LastIndexOf(chars, ControlPoint) >= i;
    }
    if exists i :: 0 <= i < |chars| && Classify(chars[i]) == Some(DataOut) {
      var i :| 0 <= i < |chars| && Classify(chars[i]) == Some(DataOut);
      assert LastIndexOf(chars, DataOut) >= i;
    }
  }

  /** Whatever was bound before, a readable service table decides the roles alone. */
  lemma FoundIgnoresPrevious(p: Roles, q: Roles, table: Option<seq<Service>>)
    requires table.Some?
    ensures FindCharacteristics(p, table) == FindCharacteristics(q, table)
  {
  }

  /** The service and role prefixes are digits only, so upper-case UUIDs are matched as well. */
  lemma PrefixesAreCaseInsensitive(uuid: string)
    ensures StartsWith(Lower(uuid), ServicePrefix) <==> StartsWith(uuid, ServicePrefix)
    ensures StartsWith(Lower(uuid), ControlPointPrefix) <==> StartsWith(uuid, ControlPointPrefix)
    ensures StartsWith(Lower(uuid), DataOutPrefix) <==> StartsWith(uuid, DataOutPrefix)
    ensures StartsWith(Lower(uuid), InfoPrefix) <==> StartsWith(uuid, InfoPrefix)
  {
    DigitPrefixIgnoresCase(uuid, ServicePrefix);
    DigitPrefixIgnoresCase(uuid, ControlPointPrefix);
    DigitPrefixIgnoresCase(uuid, DataOutPrefix);
    DigitPrefixIgnoresCase(uuid, InfoPrefix);
  }
}

=== FILE: scan.dfy ===
/**
 * `scan_networks`: a single START_SCAN exchange, after which every streamed
 * Result carrying a scan record with Wi-Fi information becomes one network,
 * in arrival order. Any exception, including an unnamed auth mode or band,
 * yields the empty list.
 */
module Scan {
  import opened Wrappers
  import opened Text
  import opened Codec
  import opened Trace
  import opened Session
  import opened Dispatch
  import opened Exchange

  datatype WiFiNetwork = WiFiNetwork(
    ssid: string,
    bssid: string,
    channel: int,
    authMode: string,
    band: string,
    rssi: Option<int>)

  /** The scan period the client requests, in milliseconds. */
  const ScanPeriodMs: int := 5000

  /** UTF-8 with errors ignored; if that loses every character of a non-empty SSID, Latin-1. */
  function DecodeSsid(c: Codec, b: Bytes): (r: string)
    ensures c.utf8Decode(b) != [] ==> r == c.utf8Decode(b)
  {
    var u := c.utf8Decode(b);
    if u == [] && b != [] then Latin1Decode(b) else u
  }

  /** Only an empty SSID decodes to the empty name. */
  lemma SsidEmptyIff(c: Codec, b: Bytes)
    requires DecodesEmptyToEmpty(c)
    ensures DecodeSsid(c, b) == [] <==> b == []
  {
  }

  /** The Latin-1 fallback loses nothing: the name encodes back to the SSID's bytes. */
  lemma SsidFallbackKeepsBytes(c: Codec, b: Bytes)
    requires c.utf8Decode(b) == [] && b != []
    ensures Latin1Encode(DecodeSsid(c, b)) == Some(b)
  {
    Latin1RoundTrip(b);
  }

  /** Both the auth mode and the band of the record have enum names. */
  predicate Named(c: Codec, rec: ScanRecord)
    requires rec.wifi.Some?
  {
    c.authName(rec.wifi.value.auth.GetOr(0)).Some? && c.bandName(rec.wifi.value.band.GetOr(0)).Some?
  }

  /** A scan record with Wi-Fi information as a network; None when an enum name lookup raises. */
  function ScannedNetwork(c: Codec, rec: ScanRecord): (r: Option<WiFiNetwork>)
    requires rec.wifi.Some?
    ensures r.Some? <==> Named(c, rec)
    ensures r.Some? ==> r.value.ssid == DecodeSsid(c, rec.wifi.value.ssid.GetOr([]))
    ensures r.Some? ==> r.value.authMode == c.authName(rec.wifi.value.auth.GetOr(0)).value
    ensures r.Some? ==> r.value.band == c.bandName(rec.wifi.value.band.GetOr(0)).value
    ensures r.Some? ==> UnHex(r.value.bssid) == Some(rec.wifi.value.bssid.GetOr([]))
    ensures r.Some? ==> r.value.rssi == rec.rssi && r.value.channel == rec.wifi.value.channel.GetOr(0)
  {
    var w := rec.wifi.value;
    match (c.authName(w.auth.GetOr(0)), c.bandName(w.band.GetOr(0)))
    case (Some(auth), Some(band)) =>
      HexRoundTrip(w.bssid.GetOr([]));
      Some(WiFiNetwork(DecodeSsid(c, w.ssid.GetOr([])), Hex(w.bssid.GetOr([])), w.channel.GetOr(0), auth, band, rec.rssi))
    case _ => None
  }

  /** The scan records with Wi-Fi information among `results`, in order. */
  function Records(results: seq<Result>): (r: seq<ScanRecord>)
    ensures forall i :: 0 <= i < |r| ==> r[i].wifi.Some?
  {
    if results == [] then []
    else
      var rest := Records(results[1..]);
      var sr := results[0].scanRecord;
      if sr.Some? && sr.value.wifi.Some? then [sr.value] + rest else rest
  }

  /** The parsing loop over the Result buffer; None when it raises. */
  function ProjectScan(c: Codec, results: seq<Result>): (r: Option<seq<WiFiNetwork>>)
    ensures r.Some? ==> |r.value| == |Records(results)|
    ensures Records(results) == [] ==> r == Some([])
  {
    if results == [] then Some([])
    else
      var rest := ProjectScan(c, results[1..]);
      var sr := results[0].scanRecord;
      if sr.Some? && sr.value.wifi.Some? then
        match ScannedNetwork(c, sr.value)
        case None => None
        case Some(n) => if rest.None? then None else Some([n] + rest.value)
      else rest
  }

  /** Every name lookup of the records succeeds. */
  predicate AllNamed(c: Codec, recs: seq<ScanRecord>)
    requires forall i :: 0 <= i < |recs| ==> recs[i].wifi.Some?
  {
    forall i :: 0 <= i < |recs| ==> Named(c, recs[i])
  }

  /** The networks of records whose names all resolve, in order. */
  function Networks(c: Codec, recs: seq<ScanRecord>): (r: seq<WiFiNetwork>)
    requires forall i :: 0 <= i < |recs| ==> recs[i].wifi.Some? && Named(c, recs[i])
    ensures |r| == |recs|
  {
    if recs == [] then [] else [ScannedNetwork(c, recs[0]).value] + Networks(c, recs[1..])
  }

  lemma {:induction false} NetworksAt(c: Codec, recs: seq<ScanRecord>, i: nat)
    requires forall j :: 0 <= j < |recs| ==> recs[j].wifi.Some? && Named(c, recs[j])
    requires i < |recs|
    ensures Networks(c, recs)[i] == ScannedNetwork(c, recs[i]).value
  {
    if i > 0 {
      NetworksAt(c, recs[1..], i - 1);
    }
  }

  /** The parsing loop succeeds exactly when every name resolves, and then yields `Networks`. */
  lemma {:induction false} ProjectScanIsNetworks(c: Codec, results: seq<Result>)
    ensures var recs := Records(results);
      var r := ProjectScan(c, results);
      && (r.Some? <==> AllNamed(c, recs))
      && (r.Some? ==> r.value == Networks(c, recs))
  {
    if results != [] {
      ProjectScanIsNetworks(c, results[1..]);
      var tail := Records(results[1..]);
      var rest := ProjectScan(c, results[1..]);
      var sr := results[0].scanRecord;
      if sr.Some? && sr.value.wifi.Some? {
        var recs := [sr.value] + tail;
        assert Records(results) == recs;
        AllNamedCons(c, sr.value, tail);
        if AllNamed(c, recs) {
          assert recs[1..] == tail;
        }
      } else {
        assert Records(results) == tail && ProjectScan(c, results) == rest;
      }
    }
  }

  lemma AllNamedCons(c: Codec, rec: ScanRecord, tail: seq<ScanRecord>)
    requires rec.wifi.Some? && forall i :: 0 <= i < |tail| ==> tail[i].wifi.Some?
    ensures AllNamed(c, [rec] + tail) <==> Named(c, rec) && AllNamed(c, tail)
  {
    var recs := [rec] + tail;
    if AllNamed(c, recs) {
      assert recs[0] == rec;
      forall i | 0 <= i < |tail| ensures Named(c, tail[i]) {
        assert recs[i + 1] == tail[i];
      }
    }
    if Named(c, rec) && AllNamed(c, tail) {
      forall i | 0 <= i < |recs| ensures Named(c, recs[i]) {
        if i > 0 {
          assert recs[i] == tail[i - 1];
        }
      }
    }
  }

  /**
   * The parsing loop yields one network per scan record with Wi-Fi
   * information, in order, and fails exactly when some record's auth mode or
   * band has no name.
   */
  lemma ProjectScanIsPointwise(c: Codec, results: seq<Result>)
    ensures var recs := Records(results);
      var r := ProjectScan(c, results);
      && (r.Some? <==> AllNamed(c, recs))
      && (r.Some? ==> |r.value| == |recs| && forall i :: 0 <= i < |recs| ==> r.value[i] == ScannedNetwork(c, recs[i]).value)
  {
    var recs := Records(results);
    ProjectScanIsNetworks(c, results);
    if AllNamed(c, recs) {
      forall i | 0 <= i < |recs| ensures Networks(c, recs)[i] == ScannedNetwork(c, recs[i]).value {
        NetworksAt(c, recs, i);
      }
    }
  }

  datatype ScanRun = ScanRun(networks: seq<WiFiNetwork>, state: State, trace: seq<Action>)

  function ScanRequest(c: Codec, op: int): Request {
    Request(op, ScanParams(c.bandAny, false, ScanPeriodMs))
  }

  function ScanNetworks(c: Codec, strategy: Strategy, st: State, e: Exchange): (r: ScanRun)
    requires Covers(e, 1)
    ensures c.opStartScan.None? ==> r == ScanRun([], st, [ClearBuffers])
    ensures |r.trace| > 0 && r.trace[0] == ClearBuffers
    ensures c.opStartScan.Some? ==> r.state.link != Link(true)
    ensures c.opStartScan.Some? ==> TornDown(strategy, st, e, r.trace[1..])
    ensures c.opStartScan.Some? ==> (r.state.link == Link(false) <==>
      EnsureReady(strategy, DefaultMaxRetries, st, e.connects).ready && !e.connectedAtTeardown)
    ensures c.opStartScan.Some? && !Completes(strategy, st, Some(ScanRequest(c, c.opStartScan.value)), e) ==> r.networks == []
  {
    if c.opStartScan.None? then ScanRun([], st, [ClearBuffers])
    else
      var x := SingleExchange(c, strategy, st, Some(ScanRequest(c, c.opStartScan.value)), e);
      var networks := if x.buffers.None? then [] else ProjectScan(c, x.buffers.value.results).GetOr([]);
      ScanRun(networks, x.state, [ClearBuffers] + x.trace)
  }

  /**
   * A completed scan reports what the parsing loop makes of the Results
   * notified during the wait, and nothing else.
   */
  lemma ScanParsesNotifiedResults(c: Codec, strategy: Strategy, st: State, e: Exchange)
    requires Covers(e, 1) && c.opStartScan.Some?
    requires Completes(strategy, st, Some(ScanRequest(c, c.opStartScan.value)), e)
    ensures ScanNetworks(c, strategy, st, e).networks == ProjectScan(c, ResultsIn(c, e.frames)).GetOr([])
  {
    DeliverAppends(c, Empty, e.frames);
    assert Deliver(c, Empty, e.frames).results == ResultsIn(c, e.frames);
  }

  /**
   * A completed scan reports one network per scan record with Wi-Fi
   * information among the notified Results, in arrival order, unless a name
   * lookup fails, in which case it reports none.
   */
  lemma ScanReportsRecordsInOrder(c: Codec, strategy: Strategy, st: State, e: Exchange)
    requires Covers(e, 1) && c.opStartScan.Some?
    requires Completes(strategy, st, Some(ScanRequest(c, c.opStartScan.value)), e)
    ensures var r := ScanNetworks(c, strategy, st, e);
      var recs := Records(ResultsIn(c, e.frames));
      && (!AllNamed(c, recs) ==> r.networks == [])
      && (AllNamed(c, recs) ==>
            |r.networks| == |recs|
            && forall i :: 0 <= i < |recs| ==> r.networks[i] == ScannedNetwork(c, recs[i]).value)
  {
    ScanParsesNotifiedResults(c, strategy, st, e);
    ProjectScanIsPointwise(c, ResultsIn(c, e.frames));
  }
}

=== FILE: session.dfy ===
/**
 * The session orchestrator `_ensure_connected_and_ready`: up to `maxRetries`
 * attempts, each discarding the previous client, calling the connector and
 * running the resolver; a failed attempt releases its client before the
 * backoff, and the last failure is terminal.
 */
module Session {
  import opened Wrappers
  import opened Gatt
  import opened Trace

  /** `self.client`: absent, or present and (dis)connected when it is inspected. */
  datatype Link = NoLink | Link(connected: bool)

  /** The client-wide state the orchestrator reads and writes. */
  datatype State = State(link: Link, roles: Roles)

  /**
   * What one attempt observes. `NoClient`: the connector returned None.
   * `Opened`: it returned a client, `connected` at the check that follows,
   * whose service table is `services` (None if reading it raises) and which is
   * `stillConnected` when a failed attempt cleans up.
   */
  datatype ConnectOutcome =
    | NoClient
    | Opened(connected: bool, services: Option<seq<Service>>, stillConnected: bool)

  /** The outcome of setup; `attempts` is the number of connector calls made. */
  datatype Setup = Setup(ready: bool, state: State, trace: seq<Action>, attempts: nat)

  const DefaultMaxRetries: nat := 5

  /** An attempt succeeds when the client is connected and the resolver finds both required roles. */
  predicate AttemptSucceeds(o: ConnectOutcome) {
    o.Opened? && o.connected && o.services.Some? && Ready(Resolve(o.services.value))
  }

  /** Dropping `self.client`: disconnect it if it is connected, then clear it. */
  function Release(link: Link): (r: seq<Action>)
    ensures Count(r, Disconnect) == (if link == Link(true) then 1 else 0)
    ensures Count(r, ClearClient) == (if link.Link? then 1 else 0)
    ensures forall a :: a in r ==> a == Disconnect || a == ClearClient
  {
    match link
    case NoLink => []
    case Link(connected) => if connected then [Disconnect, ClearClient] else [ClearClient]
  }

  /**
   * What follows the connector call in one iteration: the connection check,
   * the resolver, and on failure the release of the client.
   */
  function AfterConnect(roles: Roles, o: ConnectOutcome): (r: Setup)
    ensures r.ready <==> AttemptSucceeds(o)
    ensures r.ready ==> r.state.link == Link(true) && r.state.roles == Resolve(o.services.value) && Ready(r.state.roles)
    ensures !r.ready ==> r.state.link == NoLink
    ensures forall a :: a in r.trace ==> a == Disconnect || a == ClearClient
    ensures Count(r.trace, Disconnect) ==
      (if o.Opened? && o.connected && !AttemptSucceeds(o) && o.stillConnected then 1 else 0)
  {
    match o
    case NoClient => Setup(false, State(NoLink, roles), [], 1)
    case Opened(connected, services, stillConnected) =>
      if !connected then
        Setup(false, State(NoLink, roles), Release(Link(false)), 1)
      else
        var res := FindCharacteristics(roles, services);
        if res.found then Setup(true, State(Link(true), res.roles), [], 1)
        else Setup(false, State(NoLink, res.roles), Release(Link(stillConnected)), 1)
  }

  /** One iteration of the setup loop. */
  function Attempt(strategy: Strategy, st: State, o: ConnectOutcome): (r: Setup)
    ensures r.attempts == 1
    ensures r.ready <==> AttemptSucceeds(o)
    ensures r.ready ==> r.state.link == Link(true) && r.state.roles == Resolve(o.services.value) && Ready(r.state.roles)
    ensures !r.ready ==> r.state.link == NoLink
  {
    var rest := AfterConnect(st.roles, o);
    Setup(rest.ready, rest.state, Release(st.link) + [Connect(strategy)] + rest.trace, 1)
  }

  /** Each attempt starts by discarding the existing client, disconnecting it if it is connected, then calls the connector. */
  lemma AttemptStartsWithRelease(strategy: Strategy, st: State, o: ConnectOutcome)
    ensures var t := Attempt(strategy, st, o).trace;
      |Release(st.link)| < |t| && t[..|Release(st.link)| + 1] == Release(st.link) + [Connect(strategy)]
  {
    var pre := Release(st.link);
    var t := pre + [Connect(strategy)] + AfterConnect(st.roles, o).trace;
    assert t[..|pre| + 1] == pre + [Connect(strategy)];
  }

  /** Each attempt calls the connector exactly once and never sleeps. */
  lemma AttemptCounts(strategy: Strategy, st: State, o: ConnectOutcome)
    ensures var t := Attempt(strategy, st, o).trace;
      Count(t, Connect(strategy)) == 1 && Backoff !in t && Within(t, SetupKinds)
  {
    ReleaseAroundConnect(Release(st.link), strategy, AfterConnect(st.roles, o).trace);
  }

  /** A connector call between two stretches of disconnects and clears. */
  lemma ReleaseAroundConnect(pre: seq<Action>, strategy: Strategy, rest: seq<Action>)
    requires forall a :: a in pre ==> a == Disconnect || a == ClearClient
    requires forall a :: a in rest ==> a == Disconnect || a == ClearClient
    ensures var t := pre + [Connect(strategy)] + rest;
      Count(t, Connect(strategy)) == 1 && Backoff !in t && Within(t, SetupKinds)
  {
    assert Within(pre, SetupKinds) && Within(rest, SetupKinds) by {
      forall i | 0 <= i < |pre| ensures KindOf(pre[i]) in SetupKinds {
        assert pre[i] in pre;
      }
      forall i | 0 <= i < |rest| ensures KindOf(rest[i]) in SetupKinds {
        assert rest[i] in rest;
      }
    }
    WithinSplice(pre, Connect(strategy), rest, SetupKinds);
    Count3(pre, [Connect(strategy)], rest, Connect(strategy));
    CountOne(Connect(strategy), Connect(strategy));
    CountZero(pre, Connect(strategy));
    CountZero(rest, Connect(strategy));
  }

  /**
   * An attempt disconnects the client it found if that one was connected, and
   * the client it opened if the attempt failed while that one was still connected.
   */
  lemma AttemptDisconnects(strategy: Strategy, st: State, o: ConnectOutcome)
    ensures Count(Attempt(strategy, st, o).trace, Disconnect) ==
      (if st.link == Link(true) then 1 else 0)
      + (if o.Opened? && o.connected && !AttemptSucceeds(o) && o.stillConnected then 1 else 0)
  {
    Count3(Release(st.link), [Connect(strategy)], AfterConnect(st.roles, o).trace, Disconnect);
    CountOne(Connect(strategy), Disconnect);
  }

  /** Attempts `k` to `maxRetries - 1`. */
  function EnsureFrom(strategy: Strategy, maxRetries: nat, k: nat, st: State, outcomes: seq<ConnectOutcome>): (r: Setup)
    requires k < maxRetries <= |outcomes|
    ensures 1 <= r.attempts <= maxRetries - k
    ensures r.ready ==> r.state.link == Link(true) && Ready(r.state.roles)
    ensures !r.ready ==> r.state.link == NoLink && r.attempts == maxRetries - k
    ensures forall j :: k <= j < k + r.attempts - 1 ==> !AttemptSucceeds(outcomes[j])
    ensures r.ready <==> AttemptSucceeds(outcomes[k + r.attempts - 1])
    ensures r.ready ==> r.state.roles == Resolve(outcomes[k + r.attempts - 1].services.value)
    decreases maxRetries - k
  {
    var a := Attempt(strategy, st, outcomes[k]);
    if a.ready || k == maxRetries - 1 then a
    else
      var rest := EnsureFrom(strategy, maxRetries, k + 1, a.state, outcomes);
      Setup(rest.ready, rest.state, a.trace + [Backoff] + rest.trace, rest.attempts + 1)
  }

  /**
   * The trace of the setup loop has one connector call per attempt and one
   * backoff between consecutive attempts, never after the last.
   */
  lemma {:induction false} EnsureFromConnects(strategy: Strategy, maxRetries: nat, k: nat, st: State, outcomes: seq<ConnectOutcome>)
    requires k < maxRetries <= |outcomes|
    ensures var r := EnsureFrom(strategy, maxRetries, k, st, outcomes);
      Count(r.trace, Connect(strategy)) == r.attempts
    decreases maxRetries - k
  {
    var a := Attempt(strategy, st, outcomes[k]);
    AttemptCounts(strategy, st, outcomes[k]);
    if !(a.ready || k == maxRetries - 1) {
      var rest := EnsureFrom(strategy, maxRetries, k + 1, a.state, outcomes);
      EnsureFromConnects(strategy, maxRetries, k + 1, a.state, outcomes);
      assert EnsureFrom(strategy, maxRetries, k, st, outcomes) ==
        Setup(rest.ready, rest.state, a.trace + [Backoff] + rest.trace, rest.attempts + 1);
      Count3(a.trace, [Backoff], rest.trace, Connect(strategy));
      CountOne(Backoff, Connect(strategy));
    }
  }

  lemma {:induction false} EnsureFromBackoffs(strategy: Strategy, maxRetries: nat, k: nat, st: State, outcomes: seq<ConnectOutcome>)
    requires k < maxRetries <= |outcomes|
    ensures var r := EnsureFrom(strategy, maxRetries, k, st, outcomes);
      Count(r.trace, Backoff) == r.attempts - 1
    decreases maxRetries - k
  {
    var a := Attempt(strategy, st, outcomes[k]);
    AttemptCounts(strategy, st, outcomes[k]);
    CountZero(a.trace, Backoff);
    if !(a.ready || k == maxRetries - 1) {
      var rest := EnsureFrom(strategy, maxRetries, k + 1, a.state, outcomes);
      EnsureFromBackoffs(strategy, maxRetries, k + 1, a.state, outcomes);
      assert EnsureFrom(strategy, maxRetries, k, st, outcomes) ==
        Setup(rest.ready, rest.state, a.trace + [Backoff] + rest.trace, rest.attempts + 1);
      Count3(a.trace, [Backoff], rest.trace, Backoff);
      CountOne(Backoff, Backoff);
    }
  }

  lemma LastOfSplice(s: seq<Action>, x: Action, t: seq<Action>)
    requires t != []
    ensures var u := s + [x] + t; u[|u| - 1] == t[|t| - 1]
  {
  }

  lemma {:induction false} EnsureFromEndsWithAttempt(strategy: Strategy, maxRetries: nat, k: nat, st: State, outcomes: seq<ConnectOutcome>)
    requires k < maxRetries <= |outcomes|
    ensures var r := EnsureFrom(strategy, maxRetries, k, st, outcomes);
      r.trace != [] && r.trace[|r.trace| - 1] != Backoff
    decreases maxRetries - k
  {
    var a := Attempt(strategy, st, outcomes[k]);
    if a.ready || k == maxRetries - 1 {
      AttemptCounts(strategy, st, outcomes[k]);
      assert a.trace[|a.trace| - 1] in a.trace;
    } else {
      var rest := EnsureFrom(strategy, maxRetries, k + 1, a.state, outcomes);
      EnsureFromEndsWithAttempt(strategy, maxRetries, k + 1, a.state, outcomes);
      var t := a.trace + [Backoff] + rest.trace;
      assert EnsureFrom(strategy, maxRetries, k, st, outcomes).trace == t;
      LastOfSplice(a.trace, Backoff, rest.trace);
    }
  }

  /**
   * `_ensure_connected_and_ready`. With `max_retries = 0` the source falls
   * through its loop and returns None, which no caller expects; the model
   * requires at least one attempt.
   */
  function EnsureReady(strategy: Strategy, maxRetries: nat, st: State, outcomes: seq<ConnectOutcome>): (r: Setup)
    requires 1 <= maxRetries <= |outcomes|
    ensures 1 <= r.attempts <= maxRetries
    ensures r.ready ==> r.state.link == Link(true) && Ready(r.state.roles)
    ensures !r.ready ==> r.state.link == NoLink && r.attempts == maxRetries
  {
    EnsureFrom(strategy, maxRetries, 0, st, outcomes)
  }

  /** The index of the first successful attempt among the first `bound`, or `bound`. */
  function FirstSuccess(outcomes: seq<ConnectOutcome>, bound: nat): (k: nat)
    requires bound <= |outcomes|
    ensures k <= bound
    ensures k < bound ==> AttemptSucceeds(outcomes[k])
    ensures forall j :: 0 <= j < k ==> !AttemptSucceeds(outcomes[j])
    decreases bound
  {
    if bound == 0 then 0
    else
      var k := FirstSuccess(outcomes, bound - 1);
      if k < bound - 1 then k
      else if AttemptSucceeds(outcomes[bound - 1]) then bound - 1
      else bound
  }

  /**
   * Setup is decided by the outcomes alone: it succeeds exactly when one of the
   * first `maxRetries` attempts succeeds, it stops at the first such attempt,
   * and the roles are those resolved there. Whatever client or roles the state
   * held before does not matter.
   */
  lemma EnsureReadyIsFirstSuccess(strategy: Strategy, maxRetries: nat, st: State, outcomes: seq<ConnectOutcome>)
    requires 1 <= maxRetries <= |outcomes|
    ensures var r := EnsureReady(strategy, maxRetries, st, outcomes);
      var k := FirstSuccess(outcomes, maxRetries);
      && (r.ready <==> k < maxRetries)
      && (r.ready ==> r.attempts == k + 1 && r.state.roles == Resolve(outcomes[k].services.value))
  {
    var r := EnsureReady(strategy, maxRetries, st, outcomes);
    var k := FirstSuccess(outcomes, maxRetries);
    if r.ready {
      assert AttemptSucceeds(outcomes[r.attempts - 1]);
    } else {
      assert r.attempts == maxRetries;
    }
  }

  /** The same outcomes give the same verdict and roles from any starting state. */
  lemma EnsureReadyIgnoresState(strategy: Strategy, maxRetries: nat, s1: State, s2: State, outcomes: seq<ConnectOutcome>)
    requires 1 <= maxRetries <= |outcomes|
    ensures EnsureReady(strategy, maxRetries, s1, outcomes).ready == EnsureReady(strategy, maxRetries, s2, outcomes).ready
    ensures EnsureReady(strategy, maxRetries, s1, outcomes).ready ==>
      EnsureReady(strategy, maxRetries, s1, outcomes).state == EnsureReady(strategy, maxRetries, s2, outcomes).state
  {
    EnsureReadyIsFirstSuccess(strategy, maxRetries, s1, outcomes);
    EnsureReadyIsFirstSuccess(strategy, maxRetries, s2, outcomes);
  }

  /**
   * Setup makes between one and `maxRetries` connector calls, sleeps only
   * between two attempts, and never after the last one.
   */
  lemma EnsureReadyTrace(strategy: Strategy, maxRetries: nat, st: State, outcomes: seq<ConnectOutcome>)
    requires 1 <= maxRetries <= |outcomes|
    ensures var r := EnsureReady(strategy, maxRetries, st, outcomes);
      && Count(r.trace, Connect(strategy)) == r.attempts
      && 1 <= Count(r.trace, Connect(strategy)) <= maxRetries
      && Count(r.trace, Backoff) == Count(r.trace, Connect(strategy)) - 1
      && r.trace[|r.trace| - 1] != Backoff
      && (!r.ready ==> Count(r.trace, Connect(strategy)) == maxRetries)
  {
    EnsureFromConnects(strategy, maxRetries, 0, st, outcomes);
    EnsureFromBackoffs(strategy, maxRetries, 0, st, outcomes);
    EnsureFromEndsWithAttempt(strategy, maxRetries, 0, st, outcomes);
  }

  /** The first attempt discards an existing client, disconnecting it if it is connected, before connecting. */
  lemma EnsureReadyDiscardsFirst(strategy: Strategy, maxRetries: nat, st: State, outcomes: seq<ConnectOutcome>)
    requires 1 <= maxRetries <= |outcomes|
    ensures var t := EnsureReady(strategy, maxRetries, st, outcomes).trace;
      |Release(st.link)| < |t| && t[..|Release(st.link)| + 1] == Release(st.link) + [Connect(strategy)]
  {
    var a := Attempt(strategy, st, outcomes[0]);
    AttemptStartsWithRelease(strategy, st, outcomes[0]);
    var r := EnsureReady(strategy, maxRetries, st, outcomes);
    var n := |Release(st.link)| + 1;
    if !(a.ready || maxRetries == 1) {
      var rest := EnsureFrom(strategy, maxRetries, 1, a.state, outcomes);
      assert r.trace == a.trace + [Backoff] + rest.trace;
      assert r.trace[..n] == a.trace[..n];
    }
  }

  /** Setup only connects, disconnects, clears the client and backs off. */
  lemma {:induction false} EnsureFromKinds(strategy: Strategy, maxRetries: nat, k: nat, st: State, outcomes: seq<ConnectOutcome>)
    requires k < maxRetries <= |outcomes|
    ensures Within(EnsureFrom(strategy, maxRetries, k, st, outcomes).trace, SetupKinds)
    decreases maxRetries - k
  {
    var a := Attempt(strategy, st, outcomes[k]);
    AttemptCounts(strategy, st, outcomes[k]);
    if !(a.ready || k == maxRetries - 1) {
      var rest := EnsureFrom(strategy, maxRetries, k + 1, a.state, outcomes);
      EnsureFromKinds(strategy, maxRetries, k + 1, a.state, outcomes);
      assert EnsureFrom(strategy, maxRetries, k, st, outcomes).trace == a.trace + [Backoff] + rest.trace;
      WithinSplice(a.trace, Backoff, rest.trace, SetupKinds);
    }
  }

  lemma EnsureReadyKinds(strategy: Strategy, maxRetries: nat, st: State, outcomes: seq<ConnectOutcome>)
    requires 1 <= maxRetries <= |outcomes|
    ensures Within(EnsureReady(strategy, maxRetries, st, outcomes).trace, SetupKinds)
  {
    EnsureFromKinds(strategy, maxRetries, 0, st, outcomes);
  }
}

=== FILE: status.dfy ===
/**
 * `get_status`: up to three operation attempts, each of which sets up the
 * session, subscribes to Data Out, writes GET_STATUS with the write retry,
 * waits for notifications and interprets the last response (or falls back to
 * a direct read of Info). An attempt that raises is torn down and, unless it
 * was the last, followed by a backoff and cleared buffers.
 */
module Status {
  import opened Wrappers
  import opened Text
  import opened Codec
  import opened Gatt
  import opened Trace
  import opened Session
  import opened Subscribe
  import opened WriteRetry
  import opened Dispatch
  import opened Exchange

  datatype DeviceStatus = DeviceStatus(
    state: string,
    ssid: Option<string>,
    ipAddress: Option<Bytes>,
    bssid: Option<string>,
    channel: Option<int>)

  function Bare(state: string): DeviceStatus {
    DeviceStatus(state, None, None, None, None)
  }

  /** A response arrived but carries no status_response. */
  const NoStatusResponse: DeviceStatus := Bare("UNKNOWN").(ssid := Some("NoStatusResponse"))
  /** No response arrived and the Info fallback gave nothing. */
  const NoResponse: DeviceStatus := Bare("UNKNOWN_NO_RESPONSE")
  /** Every operation attempt raised. */
  const Failed: DeviceStatus := Bare("ERROR")

  const MaxOperationRetries: nat := 3

  /**
   * The fields of a status_response. None when the state number has no
   * ConnectionState name (`Name` raises).
   */
  function ProjectStatus(c: Codec, sr: StatusResponse): (r: Option<DeviceStatus>)
    ensures r.Some? <==> c.stateName(sr.state).Some?
    ensures r.Some? ==> r.value.state == c.stateName(sr.state).value && r.value.ipAddress == sr.ipv4Addr
    ensures r.Some? ==> (r.value.ssid.Some? <==> sr.wifi.Some? && sr.wifi.value.ssid.Some?)
    ensures r.Some? && r.value.ssid.Some? ==> r.value.ssid.value == c.utf8Decode(sr.wifi.value.ssid.value)
    ensures r.Some? ==> (r.value.bssid.Some? <==> sr.wifi.Some? && sr.wifi.value.bssid.Some?)
    ensures r.Some? && r.value.bssid.Some? ==> UnHex(r.value.bssid.value) == Some(sr.wifi.value.bssid.value)
    ensures r.Some? ==> r.value.channel == (if sr.wifi.Some? then sr.wifi.value.channel else None)
  {
    match c.stateName(sr.state)
    case None => None
    case Some(name) =>
      var w := sr.wifi;
      var bssid :=
        if w.Some? && w.value.bssid.Some? then HexRoundTrip(w.value.bssid.value); Some(Hex(w.value.bssid.value))
        else None;
      Some(DeviceStatus(
        name,
        if w.Some? && w.value.ssid.Some? then Some(c.utf8Decode(w.value.ssid.value)) else None,
        sr.ipv4Addr,
        bssid,
        if w.Some? then w.value.channel else None))
  }

  datatype Outcome = Raised | Returned(status: DeviceStatus)

  datatype Interpretation = Interpretation(outcome: Outcome, buffers: Buffers, trace: seq<Action>)

  /**
   * What an attempt returns once the request is written and the wait is
   * over: the last response if there is one, otherwise the decoded Info
   * read. The Info read is only made when the Info role is bound; `infoRead`
   * is None when the read raises.
   */
  function Interpret(c: Codec, b: Buffers, roles: Roles, infoRead: Option<Bytes>): (r: Interpretation)
    ensures |b.responses| > 0 ==> r.trace == [] && r.buffers == b
    ensures |b.responses| > 0 ==>
      var last := b.responses[|b.responses| - 1];
      && (last.statusResponse.None? ==> r.outcome == Returned(NoStatusResponse))
      && (last.statusResponse.Some? ==>
            r.outcome == (match ProjectStatus(c, last.statusResponse.value)
                          case None => Raised
                          case Some(s) => Returned(s)))
    ensures |b.responses| == 0 ==> r.outcome.Returned? && r.buffers.responses == []
    ensures |b.responses| == 0 ==> (r.trace == [ReadInfo] <==> roles.info.Some?) && (roles.info.None? ==> r.trace == [])
    ensures |b.responses| == 0 ==>
      (r.outcome.status.state == "READ_INFO" <==>
         roles.info.Some? && infoRead.Some? && c.decodeResult(infoRead.value).Some?)
    ensures |b.responses| == 0 && r.outcome.status.state == "READ_INFO" ==>
      r.outcome.status.ssid == Some("Info: " + c.resultText(c.decodeResult(infoRead.value).value))
        && r.buffers.results == b.results + [c.decodeResult(infoRead.value).value]
    ensures |b.responses| == 0 && r.outcome.status.state != "READ_INFO" ==> r.outcome == Returned(NoResponse)
  {
    if |b.responses| > 0 then
      var last := b.responses[|b.responses| - 1];
      if last.statusResponse.None? then Interpretation(Returned(NoStatusResponse), b, [])
      else
        match ProjectStatus(c, last.statusResponse.value)
        case None => Interpretation(Raised, b, [])
        case Some(s) => Interpretation(Returned(s), b, [])
    else if roles.info.None? then
      // Reading the uuid of an unbound Info role raises; the fallback catches it.
      Interpretation(Returned(NoResponse), b, [])
    else if infoRead.None? then Interpretation(Returned(NoResponse), b, [ReadInfo])
    else
      var (res, b') := DecodeResult(c, b, infoRead.value);
      match res
      case Some(v) => Interpretation(Returned(Bare("READ_INFO").(ssid := Some("Info: " + c.resultText(v)))), b', [ReadInfo])
      case None => Interpretation(Returned(NoResponse), b', [ReadInfo])
  }

  /** What follows a successful setup in the `try` of an attempt. */
  datatype Proceeded = Proceeded(outcome: Outcome, trace: seq<Action>)

  /**
   * Subscribe, write GET_STATUS with the write retry, wait, interpret. A
   * failed subscription or a missing GET_STATUS opcode raises.
   */
  function Proceed(c: Codec, roles: Roles, e: Exchange): (r: Proceeded)
    requires Covers(e, MaxWriteRetries)
    ensures r.outcome.Returned? ==>
      && TrySubscribeNotify(DefaultRetries, e.subscribes).subscribed
      && c.opGetStatus.Some?
      && WriteWithRetry(Request(c.opGetStatus.value, NoPayload), e.writes).sent
    ensures r.outcome.Returned? ==> Write(Request(c.opGetStatus.value, NoPayload)) in r.trace
  {
    var sub := TrySubscribeNotify(DefaultRetries, e.subscribes);
    if !sub.subscribed || c.opGetStatus.None? then Proceeded(Raised, sub.trace)
    else
      var w := WriteWithRetry(Request(c.opGetStatus.value, NoPayload), e.writes);
      WriteTrace(Request(c.opGetStatus.value, NoPayload), e.writes);
      CountZero(w.trace, Write(Request(c.opGetStatus.value, NoPayload)));
      if !w.sent then Proceeded(Raised, sub.trace + w.trace)
      else
        var i := Interpret(c, Deliver(c, Empty, e.frames), roles, e.infoRead);
        Proceeded(i.outcome, sub.trace + w.trace + i.trace)
  }

  /** Everything an operation attempt does except clearing the buffers. */
  const StepKinds: set<Kind> := SetupKinds + SubscribeKinds + WriteKinds + {ReadInfoKind, StopNotifyKind}

  /** What an attempt does between setup and teardown: it never connects or disconnects. */
  const ProceedKindSet: set<Kind> := SubscribeKinds + WriteKinds + {ReadInfoKind}

  lemma ProceedKinds(c: Codec, roles: Roles, e: Exchange)
    requires Covers(e, MaxWriteRetries)
    ensures Within(Proceed(c, roles, e).trace, ProceedKindSet)
    ensures Within(Proceed(c, roles, e).trace, StepKinds)
  {
    var sub := TrySubscribeNotify(DefaultRetries, e.subscribes);
    SubscribeKindsOnly(DefaultRetries, e.subscribes);
    WithinWiden(sub.trace, SubscribeKinds, ProceedKindSet);
    if sub.subscribed && c.opGetStatus.Some? {
      var w := WriteWithRetry(Request(c.opGetStatus.value, NoPayload), e.writes);
      WriteKindsOnly(Request(c.opGetStatus.value, NoPayload), e.writes);
      WithinWiden(w.trace, WriteKinds, ProceedKindSet);
      WithinConcat(sub.trace, w.trace, ProceedKindSet);
      if w.sent {
        var i := Interpret(c, Deliver(c, Empty, e.frames), roles, e.infoRead);
        WithinConcat(sub.trace + w.trace, i.trace, ProceedKindSet);
      }
    }
    WithinWiden(Proceed(c, roles, e).trace, ProceedKindSet, StepKinds);
  }

  /** The body of the `try` of one operation attempt; `setupDone` says setup returned a client. */
  datatype Tried = Tried(outcome: Outcome, setupDone: bool, state: State, trace: seq<Action>)

  function TryStatus(c: Codec, strategy: Strategy, st: State, e: Exchange): (r: Tried)
    requires Covers(e, MaxWriteRetries)
    ensures r.setupDone <==> EnsureReady(strategy, DefaultMaxRetries, st, e.connects).ready
    ensures r.state == EnsureReady(strategy, DefaultMaxRetries, st, e.connects).state
    ensures Within(r.trace, StepKinds)
  {
    var setup := EnsureReady(strategy, DefaultMaxRetries, st, e.connects);
    EnsureReadyKinds(strategy, DefaultMaxRetries, st, e.connects);
    WithinWiden(setup.trace, SetupKinds, StepKinds);
    if !setup.ready then Tried(Raised, false, setup.state, setup.trace)
    else
      var p := Proceed(c, setup.state.roles, e);
      ProceedKinds(c, setup.state.roles, e);
      WithinConcat(setup.trace, p.trace, StepKinds);
      Tried(p.outcome, true, setup.state, setup.trace + p.trace)
  }

  /**
   * Whether setup returns a client depends on the connection outcomes alone,
   * and once it has, the attempt does not disconnect before its teardown.
   */
  lemma TryStatusSetup(c: Codec, strategy: Strategy, st: State, e: Exchange)
    requires Covers(e, MaxWriteRetries)
    ensures var r := TryStatus(c, strategy, st, e);
      && (r.setupDone <==> FirstSuccess(e.connects, DefaultMaxRetries) < DefaultMaxRetries)
      && Count(r.trace, Disconnect) == Count(EnsureReady(strategy, DefaultMaxRetries, st, e.connects).trace, Disconnect)
  {
    var setup := EnsureReady(strategy, DefaultMaxRetries, st, e.connects);
    EnsureReadyIsFirstSuccess(strategy, DefaultMaxRetries, st, e.connects);
    if setup.ready {
      var p := Proceed(c, setup.state.roles, e);
      ProceedKinds(c, setup.state.roles, e);
      Outside(p.trace, ProceedKindSet, Disconnect);
      assert TryStatus(c, strategy, st, e).trace == setup.trace + p.trace;
      CountAppend(setup.trace, p.trace, Disconnect);
    }
  }

  /**
   * An attempt subscribes to Data Out before it sends any request: a write
   * appears in its trace only after setup returned a client and the
   * subscription is confirmed.
   */
  lemma StatusWriteOnlyAfterSubscribe(c: Codec, strategy: Strategy, st: State, e: Exchange, request: Request)
    requires Covers(e, MaxWriteRetries)
    ensures var t := TryStatus(c, strategy, st, e);
      Write(request) in t.trace ==> t.setupDone && TrySubscribeNotify(DefaultRetries, e.subscribes).subscribed
  {
    var setup := EnsureReady(strategy, DefaultMaxRetries, st, e.connects);
    var t := TryStatus(c, strategy, st, e);
    EnsureReadyWritesNothing(strategy, DefaultMaxRetries, st, e.connects, request);
    if setup.ready {
      var p := Proceed(c, setup.state.roles, e);
      ProceedWritesAfterSubscribe(c, setup.state.roles, e, request);
      assert t.trace == setup.trace + p.trace;
      NotInPrefix(setup.trace, p.trace, Write(request));
    } else {
      assert t.trace == setup.trace;
    }
  }

  /** After setup, nothing is written unless the subscription is confirmed. */
  lemma ProceedWritesAfterSubscribe(c: Codec, roles: Roles, e: Exchange, request: Request)
    requires Covers(e, MaxWriteRetries)
    ensures Write(request) in Proceed(c, roles, e).trace ==> TrySubscribeNotify(DefaultRetries, e.subscribes).subscribed
  {
    var sub := TrySubscribeNotify(DefaultRetries, e.subscribes);
    if !sub.subscribed {
      SubscribeKindsOnly(DefaultRetries, e.subscribes);
      Outside(sub.trace, SubscribeKinds, Write(request));
      CountZero(sub.trace, Write(request));
    }
  }

  /**
   * What one attempt yields, from its own outcomes alone: setup succeeds at
   * the first good connection attempt, and the roles resolved there decide
   * the Info fallback.
   */
  function AttemptOutcome(c: Codec, strategy: Strategy, e: Exchange): Outcome
    requires Covers(e, MaxWriteRetries)
  {
    var k := FirstSuccess(e.connects, DefaultMaxRetries);
    if k == DefaultMaxRetries then Raised
    else Proceed(c, Resolve(e.connects[k].services.value), e).outcome
  }

  /**
   * When the request goes out but no notification decodes as a Response and
   * the Info fallback yields nothing, the attempt returns the no-response
   * status: it does not raise, so get_status does not try again.
   */
  lemma SilentPeerIsFinal(c: Codec, strategy: Strategy, e: Exchange)
    requires Covers(e, MaxWriteRetries)
    requires FirstSuccess(e.connects, DefaultMaxRetries) < DefaultMaxRetries
    requires TrySubscribeNotify(DefaultRetries, e.subscribes).subscribed && c.opGetStatus.Some?
    requires WriteWithRetry(Request(c.opGetStatus.value, NoPayload), e.writes).sent
    requires ResponsesIn(c, e.frames) == []
    requires var roles := Resolve(e.connects[FirstSuccess(e.connects, DefaultMaxRetries)].services.value);
      roles.info.None? || e.infoRead.None? || c.decodeResult(e.infoRead.value).None?
    ensures AttemptOutcome(c, strategy, e) == Returned(NoResponse)
  {
    DeliverAppends(c, Empty, e.frames);
  }

  /** An attempt's outcome does not depend on the session state it starts from. */
  lemma TryStatusOutcome(c: Codec, strategy: Strategy, st: State, e: Exchange)
    requires Covers(e, MaxWriteRetries)
    ensures TryStatus(c, strategy, st, e).outcome == AttemptOutcome(c, strategy, e)
  {
    EnsureReadyIsFirstSuccess(strategy, DefaultMaxRetries, st, e.connects);
  }

  /**
   * The teardown of the `except` block and of `finally`: stop notifications
   * and disconnect a connected client, or just drop one that is held.
   */
  function Drop(connected: bool, held: bool, roles: Roles): (r: seq<Action>)
    ensures Disconnect in r <==> connected
    ensures ClearClient in r <==> connected || held
    ensures Within(r, TeardownKinds)
    ensures Count(r, Disconnect) == if connected then 1 else 0
    ensures connected ==> |r| >= 2 && r[|r| - 2..] == [Disconnect, ClearClient]
  {
    TeardownDisconnects(true, roles);
    CountOne(ClearClient, Disconnect);
    if connected then Teardown(true, roles) else if held then [ClearClient] else []
  }

  predicate CoversAll(envs: seq<Exchange>) {
    MaxOperationRetries <= |envs| && forall i :: 0 <= i < |envs| ==> Covers(envs[i], MaxWriteRetries)
  }

  /** What one operation attempt does, with the teardown of its `except` block or of `finally`. */
  datatype Step = Step(outcome: Outcome, after: State, holds: bool, trace: seq<Action>)

  /**
   * One operation attempt and the teardown of its `except` block or of
   * `finally`. `held` says the function's local `client` still refers to a
   * client from an earlier attempt; that client is never connected.
   */
  method StatusStep(c: Codec, strategy: Strategy, st: State, held: bool, envs: seq<Exchange>, k: nat) returns (r: Step)
    requires CoversAll(envs) && k < MaxOperationRetries
    ensures r.outcome == Outcomes(c, strategy, envs, MaxOperationRetries)[k]
    ensures r.after.link == NoLink
    ensures held ==> r.holds
    ensures Within(r.trace, StepKinds)
    ensures Count(r.trace, Disconnect) == AttemptDisconnectCount(strategy, st, envs[k])
    ensures StillConnected(envs[k]) ==> |r.trace| >= 2 && r.trace[|r.trace| - 2..] == [Disconnect, ClearClient]
  {
    var e := envs[k];
    OutcomesAt(c, strategy, envs, MaxOperationRetries, k);
    var t := TryStatus(c, strategy, st, e);
    TryStatusOutcome(c, strategy, st, e);
    TryStatusSetup(c, strategy, st, e);
    r := Finish(t, held, e.connectedAtTeardown);
  }

  /**
   * The `except` block or `finally` after the `try` of an attempt: a client
   * that setup returned and that is still connected is disconnected, and the
   * session keeps no connected client.
   */
  method Finish(t: Tried, held: bool, connectedAtTeardown: bool) returns (r: Step)
    requires Within(t.trace, StepKinds)
    ensures r.outcome == t.outcome && r.after == State(NoLink, t.state.roles) && r.holds == (held || t.setupDone)
    ensures Within(r.trace, StepKinds)
    ensures var connected := t.setupDone && connectedAtTeardown;
      && Count(r.trace, Disconnect) == Count(t.trace, Disconnect) + (if connected then 1 else 0)
      && (connected ==> |r.trace| >= 2 && r.trace[|r.trace| - 2..] == [Disconnect, ClearClient])
  {
    var holds := held || t.setupDone;
    var connected := t.setupDone && connectedAtTeardown;
    var down := Drop(connected, holds, t.state.roles);
    WithinConcat(t.trace, down, StepKinds);
    StepDisconnects(t.trace, down, connected);
    r := Step(t.outcome, State(NoLink, t.state.roles), holds, t.trace + down);
  }

  /** A teardown that disconnects once and ends the step adds exactly that Disconnect. */
  lemma StepDisconnects(pre: seq<Action>, down: seq<Action>, connected: bool)
    requires Count(down, Disconnect) == (if connected then 1 else 0)
    requires connected ==> |down| >= 2 && down[|down| - 2..] == [Disconnect, ClearClient]
    ensures Count(pre + down, Disconnect) == Count(pre, Disconnect) + (if connected then 1 else 0)
    ensures connected ==> |pre + down| >= 2 && (pre + down)[|pre + down| - 2..] == [Disconnect, ClearClient]
  {
    CountAppend(pre, down, Disconnect);
    if connected {
      assert (pre + down)[|pre + down| - 2..] == down[|down| - 2..];
    }
  }

  lemma ClearsOnlyBetween(t: seq<Action>, step: seq<Action>)
    requires Within(step, StepKinds)
    ensures Count(t + step, ClearBuffers) == Count(t, ClearBuffers)
    ensures |t| > 0 ==> (t + step)[0] == t[0]
  {
    Outside(step, StepKinds, ClearBuffers);
    CountAppend(t, step, ClearBuffers);
  }

  lemma ClearsOnRetry(t: seq<Action>, again: seq<Action>)
    requires again == [] || again == [ClearClient]
    ensures Count(t + [Backoff, ClearBuffers] + again, ClearBuffers) == Count(t, ClearBuffers) + 1
    ensures Count(t + again, ClearBuffers) == Count(t, ClearBuffers)
    ensures |t| > 0 ==> (t + [Backoff, ClearBuffers] + again)[0] == t[0] && (t + again)[0] == t[0]
  {
    CountAppend(t, [Backoff, ClearBuffers], ClearBuffers);
    CountAppend(t + [Backoff, ClearBuffers], again, ClearBuffers);
    CountAppend(t, again, ClearBuffers);
    CountZero(again, ClearBuffers);
    assert Count([Backoff, ClearBuffers], ClearBuffers) == 1 by {
      assert [Backoff, ClearBuffers][1..] == [ClearBuffers];
      assert [ClearBuffers][1..] == [];
    }
  }

  /** The outcomes of the first `n` operation attempts, each decided by its own exchange alone. */
  function Outcomes(c: Codec, strategy: Strategy, envs: seq<Exchange>, n: nat): (r: seq<Outcome>)
    requires n <= MaxOperationRetries && CoversAll(envs)
    ensures |r| == n
  {
    if n == 0 then [] else Outcomes(c, strategy, envs, n - 1) + [AttemptOutcome(c, strategy, envs[n - 1])]
  }

  lemma {:induction false} OutcomesAt(c: Codec, strategy: Strategy, envs: seq<Exchange>, n: nat, j: nat)
    requires n <= MaxOperationRetries && CoversAll(envs) && j < n
    ensures Outcomes(c, strategy, envs, n)[j] == AttemptOutcome(c, strategy, envs[j])
  {
    var prev := Outcomes(c, strategy, envs, n - 1);
    assert Outcomes(c, strategy, envs, n) == prev + [AttemptOutcome(c, strategy, envs[n - 1])];
    if j < n - 1 {
      OutcomesAt(c, strategy, envs, n - 1, j);
      assert (prev + [AttemptOutcome(c, strategy, envs[n - 1])])[j] == prev[j];
    }
  }

  /** The index of the first outcome from `k` on that returns, or `|outs|`. */
  function FirstReturn(outs: seq<Outcome>, k: nat): (j: nat)
    requires k <= |outs|
    ensures k <= j <= |outs|
    ensures j < |outs| ==> outs[j].Returned?
    ensures forall i :: k <= i < j ==> outs[i].Raised?
    decreases |outs| - k
  {
    if k == |outs| || outs[k].Returned? then k else FirstReturn(outs, k + 1)
  }

  /** How many of the first `n` attempts end with setup's client still connected at teardown. */
  function ConnectedTeardowns(envs: seq<Exchange>, n: nat): (r: nat)
    requires n <= MaxOperationRetries && CoversAll(envs)
    ensures r <= n
  {
    if n == 0 then 0 else ConnectedTeardowns(envs, n - 1) + (if StillConnected(envs[n - 1]) then 1 else 0)
  }

  /**
   * One pass of the retry loop of get_status: an attempt with its teardown
   * and, when it raises, the `finally` drop of a client still held, preceded
   * before a further attempt by the backoff and the buffer clear.
   */
  method Round(c: Codec, strategy: Strategy, st: State, held: bool, envs: seq<Exchange>, k: nat, trace: seq<Action>)
    returns (outcome: Outcome, after: State, holds: bool, next: seq<Action>)
    requires CoversAll(envs) && k < MaxOperationRetries
    requires |trace| > 0 && trace[0] == ClearBuffers && Count(trace, ClearBuffers) == k + 1
    requires Count(trace, Disconnect) >= ConnectedTeardowns(envs, k)
    ensures outcome == Outcomes(c, strategy, envs, MaxOperationRetries)[k]
    ensures after.link == NoLink
    ensures |next| > 0 && next[0] == ClearBuffers
    ensures Count(next, ClearBuffers) == if outcome.Returned? || k == MaxOperationRetries - 1 then k + 1 else k + 2
    ensures Count(next, Disconnect) >= ConnectedTeardowns(envs, k + 1)
    ensures Count(next, Disconnect) ==
      Count(trace, Disconnect)
      + AttemptDisconnectCount(strategy, st, envs[k])
    ensures StillConnected(envs[k]) && outcome.Returned? ==>
      |next| >= 2 && next[|next| - 2..] == [Disconnect, ClearClient]
  {
    var s := StatusStep(c, strategy, st, held, envs, k);
    outcome, after, holds := s.outcome, s.after, s.holds;
    next := Advance(trace, s, k);
  }

  /**
   * Appends an attempt's own trace and, when it raised, the `finally` drop of
   * a client still held, preceded before a further attempt by the backoff and
   * the buffer clear. Only the attempt's own trace can disconnect.
   */
  method Advance(trace: seq<Action>, s: Step, k: nat) returns (next: seq<Action>)
    requires k < MaxOperationRetries && Within(s.trace, StepKinds)
    ensures |trace| > 0 ==> |next| > 0 && next[0] == trace[0]
    ensures Count(next, ClearBuffers) ==
      Count(trace, ClearBuffers) + (if s.outcome.Raised? && k < MaxOperationRetries - 1 then 1 else 0)
    ensures Count(next, Disconnect) == Count(trace, Disconnect) + Count(s.trace, Disconnect)
    ensures s.outcome.Returned? && |s.trace| >= 2 ==> |next| >= 2 && next[|next| - 2..] == s.trace[|s.trace| - 2..]
  {
    ClearsOnlyBetween(trace, s.trace);
    CountAppend(trace, s.trace, Disconnect);
    var t := trace + s.trace;
    if s.outcome.Returned? {
      next := t;
      if |s.trace| >= 2 {
        assert next[|next| - 2..] == s.trace[|s.trace| - 2..];
      }
    } else {
      // `finally` after the `except` block: the client is no longer connected.
      var again := if s.holds then [ClearClient] else [];
      ClearsOnRetry(t, again);
      if k < MaxOperationRetries - 1 {
        next := t + [Backoff, ClearBuffers] + again;
        NoDisconnectAdded(t, [Backoff, ClearBuffers]);
        NoDisconnectAdded(t + [Backoff, ClearBuffers], again);
      } else {
        next := t + again;
        NoDisconnectAdded(t, again);
      }
    }
  }

  /**
   * The Disconnects of one attempt: those of its setup, plus the teardown's
   * when setup returned a client still connected at the end.
   */
  function AttemptDisconnectCount(strategy: Strategy, st: State, e: Exchange): nat
    requires Covers(e, 1)
  {
    Count(EnsureReady(strategy, DefaultMaxRetries, st, e.connects).trace, Disconnect)
    + (if StillConnected(e) then 1 else 0)
  }

  /** The backoff, the buffer clear and the final drop of a held client add no Disconnect. */
  lemma NoDisconnectAdded(t: seq<Action>, tail: seq<Action>)
    requires Disconnect !in tail
    ensures Count(t + tail, Disconnect) == Count(t, Disconnect)
  {
    CountAppend(t, tail, Disconnect);
    CountZero(tail, Disconnect);
  }

  /**
   * get_status; `envs[i]` is what the transport does during operation attempt
   * `i`. It returns what the first attempt that does not raise returns (a
   * status, a non-status response, the Info fallback or the no-response
   * status, without trying again), and ERROR only when all three attempts
   * raise. The buffers are cleared once before each attempt, and no client is
   * left in the session.
   */
  method GetStatus(c: Codec, strategy: Strategy, st: State, envs: seq<Exchange>)
    returns (status: DeviceStatus, state: State, trace: seq<Action>, attempts: nat)
    requires CoversAll(envs)
    ensures var outs := Outcomes(c, strategy, envs, MaxOperationRetries);
      var j := FirstReturn(outs, 0);
      && (j < MaxOperationRetries ==> status == outs[j].status && attempts == j + 1)
      && (j == MaxOperationRetries ==> status == Failed && attempts == MaxOperationRetries)
    ensures 1 <= attempts <= MaxOperationRetries
    ensures state.link == NoLink
    ensures |trace| > 0 && trace[0] == ClearBuffers
    ensures Count(trace, ClearBuffers) == attempts
    ensures Count(trace, Disconnect) >= ConnectedTeardowns(envs, attempts)
  {
    var outs := Outcomes(c, strategy, envs, MaxOperationRetries);
    status := Failed;
    state := st;
    trace := [ClearBuffers];
    attempts := 0;
    var held := false;
    var done := false;
    while attempts < MaxOperationRetries && !done
      invariant attempts <= MaxOperationRetries
      invariant forall i :: 0 <= i < attempts && !(done && i == attempts - 1) ==> outs[i].Raised?
      invariant done ==> attempts >= 1 && outs[attempts - 1] == Returned(status)
      invariant !done ==> status == Failed
      invariant attempts > 0 ==> state.link == NoLink
      invariant |trace| > 0 && trace[0] == ClearBuffers
      invariant Count(trace, ClearBuffers) == (if done || attempts == MaxOperationRetries then attempts else attempts + 1)
      invariant Count(trace, Disconnect) >= ConnectedTeardowns(envs, attempts)
      decreases MaxOperationRetries - attempts
    {
      var outcome;
      outcome, state, held, trace := Round(c, strategy, state, held, envs, attempts, trace);
      if outcome.Returned? {
        status := outcome.status;
        done := true;
      }
      attempts := attempts + 1;
    }
    ghost var j := FirstReturn(outs, 0);
    if done {
      assert j == attempts - 1;
    } else {
      assert j == MaxOperationRetries;
    }
  }
}

=== FILE: subscribe.dfy ===
/**
 * `try_subscribe_notify`: enable notifications on Data Out, checking the
 * connection before every attempt and backing off between failed attempts.
 */
module Subscribe {
  import opened Trace

  /** What one attempt observes: the connection check and whether start_notify raised. */
  datatype SubscribeAttempt = SubscribeAttempt(connected: bool, raises: bool)

  datatype Subscription = Subscription(subscribed: bool, trace: seq<Action>, calls: nat)

  const DefaultRetries: nat := 3

  /** Attempts `k` to `retries - 1`. */
  function SubscribeFrom(retries: nat, k: nat, outcomes: seq<SubscribeAttempt>): (r: Subscription)
    requires k <= retries <= |outcomes|
    ensures r.calls <= retries - k
    ensures r.subscribed ==> r.calls >= 1 && !outcomes[k + r.calls - 1].raises
    ensures forall j :: k <= j < k + r.calls ==> outcomes[j].connected
    ensures forall j :: k <= j < k + r.calls - 1 ==> outcomes[j].raises
    ensures !r.subscribed ==> forall j :: k <= j < k + r.calls ==> outcomes[j].raises
    ensures !r.subscribed && r.calls < retries - k ==> !outcomes[k + r.calls].connected
    ensures !r.subscribed && r.calls == retries - k && r.calls > 0 ==> outcomes[retries - 1].raises
    decreases retries - k
  {
    if k == retries then Subscription(false, [], 0)
    else if !outcomes[k].connected then Subscription(false, [], 0)
    else if !outcomes[k].raises then Subscription(true, [StartNotify], 1)
    else
      var rest := SubscribeFrom(retries, k + 1, outcomes);
      var pause := if k < retries - 1 then [Backoff] else [];
      Subscription(rest.subscribed, [StartNotify] + pause + rest.trace, rest.calls + 1)
  }

  /** try_subscribe_notify with `retries` attempts. */
  function TrySubscribeNotify(retries: nat, outcomes: seq<SubscribeAttempt>): (r: Subscription)
    requires retries <= |outcomes|
    ensures r.calls <= retries
    ensures r.subscribed ==> r.calls >= 1 && !outcomes[r.calls - 1].raises
    ensures forall j :: 0 <= j < r.calls ==> outcomes[j].connected
    ensures forall j :: 0 <= j < r.calls - 1 ==> outcomes[j].raises
    ensures !r.subscribed ==> forall j :: 0 <= j < r.calls ==> outcomes[j].raises
    ensures !r.subscribed && r.calls < retries ==> !outcomes[r.calls].connected
  {
    SubscribeFrom(retries, 0, outcomes)
  }

  // ---------------------------------------------------------------------------
  // Reference definition
  // ---------------------------------------------------------------------------

  /** Attempt `k` is the first to succeed: every earlier one found the link up and raised. */
  predicate SucceedsAt(outcomes: seq<SubscribeAttempt>, k: nat)
    requires k < |outcomes|
  {
    && (forall j :: 0 <= j < k ==> outcomes[j].connected && outcomes[j].raises)
    && outcomes[k].connected && !outcomes[k].raises
  }

  // ---------------------------------------------------------------------------
  // Lemmas
  // ---------------------------------------------------------------------------

  /**
   * Subscription succeeds exactly when some attempt within the bound is the
   * first to succeed, and then that attempt is the last start_notify call.
   */
  lemma SubscribedIff(retries: nat, outcomes: seq<SubscribeAttempt>)
    requires retries <= |outcomes|
    ensures var r := TrySubscribeNotify(retries, outcomes);
      r.subscribed <==> exists k :: 0 <= k < retries && SucceedsAt(outcomes, k)
    ensures var r := TrySubscribeNotify(retries, outcomes);
      r.subscribed ==> SucceedsAt(outcomes, r.calls - 1)
  {
    var r := TrySubscribeNotify(retries, outcomes);
    if r.subscribed {
      assert SucceedsAt(outcomes, r.calls - 1);
    } else {
      forall k | 0 <= k < retries
        ensures !SucceedsAt(outcomes, k)
      {
        if k < r.calls {
          assert outcomes[k].raises;
        } else {
          assert !outcomes[r.calls].connected;
        }
      }
    }
  }

  /**
   * A link found down before an attempt ends the subscription at once, as a
   * failure and without calling start_notify again.
   */
  lemma DisconnectFailsFast(retries: nat, outcomes: seq<SubscribeAttempt>, k: nat)
    requires k < retries <= |outcomes|
    requires forall j :: 0 <= j < k ==> outcomes[j].connected && outcomes[j].raises
    requires !outcomes[k].connected
    ensures !TrySubscribeNotify(retries, outcomes).subscribed
    ensures TrySubscribeNotify(retries, outcomes).calls == k
  {
  }

  lemma {:induction false} SubscribeFromCalls(retries: nat, k: nat, outcomes: seq<SubscribeAttempt>)
    requires k <= retries <= |outcomes|
    ensures var r := SubscribeFrom(retries, k, outcomes);
      Count(r.trace, StartNotify) == r.calls
    decreases retries - k
  {
    if k < retries && outcomes[k].connected {
      CountOne(StartNotify, StartNotify);
      if outcomes[k].raises {
        var rest := SubscribeFrom(retries, k + 1, outcomes);
        SubscribeFromCalls(retries, k + 1, outcomes);
        var pause: seq<Action> := if k < retries - 1 then [Backoff] else [];
        assert SubscribeFrom(retries, k, outcomes) ==
          Subscription(rest.subscribed, [StartNotify] + pause + rest.trace, rest.calls + 1);
        Count3([StartNotify], pause, rest.trace, StartNotify);
        CountOne(Backoff, StartNotify);
      }
    }
  }

  lemma {:induction false} SubscribeFromBackoffs(retries: nat, k: nat, outcomes: seq<SubscribeAttempt>)
    requires k <= retries <= |outcomes|
    ensures var r := SubscribeFrom(retries, k, outcomes);
      Count(r.trace, Backoff) <= r.calls && (r.calls == retries - k ==> Count(r.trace, Backoff) < r.calls || r.calls == 0)
    ensures var r := SubscribeFrom(retries, k, outcomes);
      r.subscribed ==> Count(r.trace, Backoff) == r.calls - 1
    ensures var r := SubscribeFrom(retries, k, outcomes);
      !r.subscribed && r.calls < retries - k ==> Count(r.trace, Backoff) == r.calls
    ensures var r := SubscribeFrom(retries, k, outcomes);
      !r.subscribed && r.calls == retries - k && r.calls > 0 ==> Count(r.trace, Backoff) == r.calls - 1
    decreases retries - k
  {
    if k < retries && outcomes[k].connected {
      CountOne(StartNotify, Backoff);
      if outcomes[k].raises {
        var rest := SubscribeFrom(retries, k + 1, outcomes);
        SubscribeFromBackoffs(retries, k + 1, outcomes);
        var pause: seq<Action> := if k < retries - 1 then [Backoff] else [];
        assert SubscribeFrom(retries, k, outcomes) ==
          Subscription(rest.subscribed, [StartNotify] + pause + rest.trace, rest.calls + 1);
        Count3([StartNotify], pause, rest.trace, Backoff);
        CountOne(Backoff, Backoff);
      }
    }
  }

  /**
   * start_notify is called at most `retries` times, and every failed call
   * except the last permitted one is followed by a backoff: a success follows
   * one backoff per earlier failure, a disconnect that ends the loop early
   * follows one backoff per call, and exhausting the retries leaves one
   * backoff fewer than calls.
   */
  lemma SubscribeTrace(retries: nat, outcomes: seq<SubscribeAttempt>)
    requires retries <= |outcomes|
    ensures var r := TrySubscribeNotify(retries, outcomes);
      && Count(r.trace, StartNotify) == r.calls <= retries
      && Count(r.trace, Backoff) <= r.calls
      && (retries > 0 ==> Count(r.trace, Backoff) < retries)
      && (r.subscribed ==> Count(r.trace, Backoff) == r.calls - 1)
      && (!r.subscribed && r.calls < retries ==> Count(r.trace, Backoff) == r.calls)
      && (!r.subscribed && r.calls == retries > 0 ==> Count(r.trace, Backoff) == retries - 1)
  {
    SubscribeFromCalls(retries, 0, outcomes);
    SubscribeFromBackoffs(retries, 0, outcomes);
  }

  /** Subscribing only calls start_notify and backs off. */
  lemma {:induction false} SubscribeFromKinds(retries: nat, k: nat, outcomes: seq<SubscribeAttempt>)
    requires k <= retries <= |outcomes|
    ensures Within(SubscribeFrom(retries, k, outcomes).trace, SubscribeKinds)
    decreases retries - k
  {
    if k < retries && outcomes[k].connected && outcomes[k].raises {
      SubscribeFromKinds(retries, k + 1, outcomes);
    }
  }

  lemma SubscribeKindsOnly(retries: nat, outcomes: seq<SubscribeAttempt>)
    requires retries <= |outcomes|
    ensures Within(TrySubscribeNotify(retries, outcomes).trace, SubscribeKinds)
  {
    SubscribeFromKinds(retries, 0, outcomes);
  }
}

=== FILE: text.dfy ===
/**
 * Byte strings and the three text conversions the client applies to them:
 * ASCII lower-casing of identifiers, `bytes.hex()` and the ISO/IEC 8859-1
 * (Latin-1) decoding used as the SSID fallback.
 */
module Text {
  import opened Wrappers

  type Byte = b: int | 0 <= b < 256
  type Bytes = seq<Byte>

  // ---------------------------------------------------------------------------
  // Prefix matching on lower-cased identifiers
  // ---------------------------------------------------------------------------

  predicate IsDigit(c: char) {
    '0' <= c <= '9'
  }

  /** ASCII lower-casing of one character; every other character is kept. */
  function LowerChar(c: char): char {
    if 'A' <= c <= 'Z' then (c as int + 32) as char else c
  }

  function Lower(s: string): (r: string)
    ensures |r| == |s|
    ensures forall i :: 0 <= i < |s| ==> r[i] == LowerChar(s[i])
  {
    seq(|s|, i requires 0 <= i < |s| => LowerChar(s[i]))
  }

  predicate StartsWith(s: string, prefix: string) {
    |prefix| <= |s| && s[..|prefix|] == prefix
  }

  /** Lower-casing never turns a non-digit into a digit and keeps digits as they are. */
  lemma LowerCharDigit(c: char)
    ensures IsDigit(LowerChar(c)) <==> IsDigit(c)
    ensures IsDigit(c) ==> LowerChar(c) == c
  {
  }

  /**
   * A prefix made of digits matches the lower-cased identifier exactly when it
   * matches the identifier itself: the case-insensitive comparison of the
   * resolver cannot be fooled by letters.
   */
  lemma DigitPrefixIgnoresCase(s: string, prefix: string)
    requires forall i :: 0 <= i < |prefix| ==> IsDigit(prefix[i])
    ensures StartsWith(Lower(s), prefix) <==> StartsWith(s, prefix)
  {
    if StartsWith(Lower(s), prefix) {
      forall i | 0 <= i < |prefix|
        ensures s[i] == prefix[i]
      {
        assert Lower(s)[i] == prefix[i];
        LowerCharDigit(s[i]);
      }
      assert s[..|prefix|] == prefix;
    }
    if StartsWith(s, prefix) {
      forall i | 0 <= i < |prefix|
        ensures Lower(s)[i] == prefix[i]
      {
        assert s[i] == prefix[i];
        LowerCharDigit(s[i]);
      }
      assert Lower(s)[..|prefix|] == prefix;
    }
  }

  // ---------------------------------------------------------------------------
  // bytes.hex(): two lower-case hexadecimal digits per byte
  // ---------------------------------------------------------------------------

  const HexDigits: string := "0123456789abcdef"

  function HexValue(c: char): (r: Option<int>)
    ensures r.Some? ==> 0 <= r.value < 16 && HexDigits[r.value] == c
  {
    if '0' <= c <= '9' then Some(c as int - '0' as int)
    else if 'a' <= c <= 'f' then Some(c as int - 'a' as int + 10)
    else None
  }

  function Hex(b: Bytes): (r: string)
    ensures |r| == 2 * |b|
  {
    if b == [] then []
    else [HexDigits[b[0] / 16], HexDigits[b[0] % 16]] + Hex(b[1..])
  }

  /** Reads back the output of `Hex`; `None` for odd length or a foreign character. */
  function UnHex(s: string): (r: Option<Bytes>)
    decreases |s|
  {
    if s == [] then Some([])
    else if |s| == 1 then None
    else
      match (HexValue(s[0]), HexValue(s[1]), UnHex(s[2..]))
      case (Some(hi), Some(lo), Some(rest)) => Some([hi * 16 + lo] + rest)
      case _ => None
  }

  lemma HexDigitRoundTrip(n: int)
    requires 0 <= n < 16
    ensures HexValue(HexDigits[n]) == Some(n)
  {
  }

  /** The hexadecimal rendering of a BSSID loses nothing. */
  lemma {:induction false} HexRoundTrip(b: Bytes)
    ensures UnHex(Hex(b)) == Some(b)
  {
    if b != [] {
      var s := Hex(b);
      var hi, lo := b[0] / 16, b[0] % 16;
      HexRoundTrip(b[1..]);
      HexDigitRoundTrip(hi);
      HexDigitRoundTrip(lo);
      assert s[0] == HexDigits[hi] && s[1] == HexDigits[lo];
      assert s[2..] == Hex(b[1..]);
      assert hi * 16 + lo == b[0];
      assert [b[0]] + b[1..] == b;
    }
  }

  /** Conversely, every string `UnHex` accepts is the rendering of what it returns. */
  lemma {:induction false} UnHexSound(s: string, b: Bytes)
    requires UnHex(s) == Some(b)
    ensures Hex(b) == s
    decreases |s|
  {
    if s != [] {
      var hi := HexValue(s[0]).value;
      var lo := HexValue(s[1]).value;
      var rest := UnHex(s[2..]).value;
      UnHexSound(s[2..], rest);
      SplitByte(hi, lo);
      assert b == [hi * 16 + lo] + rest;
      assert b[1..] == rest;
      assert s == [s[0], s[1]] + s[2..];
    }
  }

  lemma SplitByte(hi: int, lo: int)
    requires 0 <= hi < 16 && 0 <= lo < 16
    ensures 0 <= hi * 16 + lo < 256
    ensures (hi * 16 + lo) / 16 == hi && (hi * 16 + lo) % 16 == lo
  {
  }

  /** Two byte strings render to the same hexadecimal text only if they are equal. */
  lemma HexInjective(a: Bytes, b: Bytes)
    requires Hex(a) == Hex(b)
    ensures a == b
  {
    HexRoundTrip(a);
    HexRoundTrip(b);
  }

  // ---------------------------------------------------------------------------
  // ISO/IEC 8859-1: byte n is code point n
  // ---------------------------------------------------------------------------

  function Latin1Decode(b: Bytes): (r: string)
    ensures |r| == |b|
  {
    seq(|b|, i requires 0 <= i < |b| => b[i] as char)
  }

  function Latin1Encode(s: string): (r: Option<Bytes>)
  {
    if forall i :: 0 <= i < |s| ==> s[i] as int < 256 then
      Some(seq(|s|, i requires 0 <= i < |s| => s[i] as int as Byte))
    else None
  }

  /** Latin-1 decoding is total and byte-preserving: encoding it back gives the bytes. */
  lemma Latin1RoundTrip(b: Bytes)
    ensures Latin1Encode(Latin1Decode(b)) == Some(b)
  {
    var s := Latin1Decode(b);
    assert forall i :: 0 <= i < |s| ==> s[i] as int == b[i];
    var e := seq(|s|, i requires 0 <= i < |s| => s[i] as int as Byte);
    assert e == b;
  }
}

=== FILE: trace.dfy ===
/**
 * Observable side effects of the protocol engine, recorded in the order they
 * happen. Delays are recorded only where they separate retry attempts
 * (`Backoff`); the fixed settle and wait delays carry no protocol meaning.
 */
module Trace {
  import opened Codec

  /** Which connector the session orchestrator uses: direct pairing or the bluetoothctl hybrid. */
  datatype Strategy = Direct | Hybrid

  datatype Action =
    | Connect(strategy: Strategy)   // one call of the chosen connector: one setup attempt
    | Disconnect                    // client.disconnect()
    | ClearClient                   // self.client = None
    | StartNotify                   // one call of start_notify on Data Out
    | StopNotify                    // stop_notify on Data Out
    | Write(request: Request)       // one write of an encoded request to Control Point
    | ReadInfo                      // direct read of the Info characteristic
    | ClearBuffers                  // self.responses = [] and self.results = []
    | Backoff                       // a delay between two attempts of a retry loop

  /** How many times `a` occurs in `t`. */
  function Count(t: seq<Action>, a: Action): nat
    decreases |t|
  {
    if t == [] then 0 else (if t[0] == a then 1 else 0) + Count(t[1..], a)
  }

  lemma {:induction false} CountAppend(s: seq<Action>, t: seq<Action>, a: Action)
    ensures Count(s + t, a) == Count(s, a) + Count(t, a)
    decreases |s|
  {
    if s == [] {
      assert s + t == t;
    } else {
      assert (s + t)[0] == s[0];
      assert (s + t)[1..] == s[1..] + t;
      CountAppend(s[1..], t, a);
    }
  }

  lemma {:induction false} CountZero(t: seq<Action>, a: Action)
    ensures Count(t, a) == 0 <==> a !in t
    decreases |t|
  {
    if t != [] {
      CountZero(t[1..], a);
      assert t == [t[0]] + t[1..];
    }
  }

  lemma Count3(r: seq<Action>, s: seq<Action>, t: seq<Action>, a: Action)
    ensures Count(r + s + t, a) == Count(r, a) + Count(s, a) + Count(t, a)
  {
    CountAppend(r + s, t, a);
    CountAppend(r, s, a);
  }

  lemma NotInPrefix(s: seq<Action>, t: seq<Action>, a: Action)
    requires a !in s
    ensures a in s + t ==> a in t
  {
  }

  lemma CountOne(x: Action, a: Action)
    ensures Count([x], a) == if x == a then 1 else 0
  {
    assert [x][1..] == [];
  }

  /** The kind of an action, ignoring its arguments. */
  datatype Kind =
    | ConnectKind | DisconnectKind | ClearClientKind | StartNotifyKind | StopNotifyKind
    | WriteKind | ReadInfoKind | ClearBuffersKind | BackoffKind

  function KindOf(a: Action): Kind {
    match a
    case Connect(_) => ConnectKind
    case Disconnect => DisconnectKind
    case ClearClient => ClearClientKind
    case StartNotify => StartNotifyKind
    case StopNotify => StopNotifyKind
    case Write(_) => WriteKind
    case ReadInfo => ReadInfoKind
    case ClearBuffers => ClearBuffersKind
    case Backoff => BackoffKind
  }

  /** Every action of `t` is of one of the kinds `ks`. */
  predicate Within(t: seq<Action>, ks: set<Kind>) {
    forall i :: 0 <= i < |t| ==> KindOf(t[i]) in ks
  }

  /** The kinds the setup loop, the subscription loop and the write loop perform. */
  const SetupKinds: set<Kind> := {ConnectKind, DisconnectKind, ClearClientKind, BackoffKind}
  const SubscribeKinds: set<Kind> := {StartNotifyKind, BackoffKind}
  const WriteKinds: set<Kind> := {WriteKind, BackoffKind}
  /** The kinds the final cleanup of an operation performs. */
  const TeardownKinds: set<Kind> := {StopNotifyKind, DisconnectKind, ClearClientKind}

  /** An action of a kind outside `ks` does not occur in a trace within `ks`. */
  lemma Outside(t: seq<Action>, ks: set<Kind>, a: Action)
    requires Within(t, ks) && KindOf(a) !in ks
    ensures Count(t, a) == 0
  {
    CountZero(t, a);
  }

  lemma WithinConcat(s: seq<Action>, t: seq<Action>, ks: set<Kind>)
    requires Within(s, ks) && Within(t, ks)
    ensures Within(s + t, ks)
  {
    forall i | 0 <= i < |s + t| ensures KindOf((s + t)[i]) in ks {
      if i >= |s| {
        assert (s + t)[i] == t[i - |s|];
      }
    }
  }

  /** Two stretches within `ks` joined by one more action of a kind in `ks`. */
  lemma WithinSplice(s: seq<Action>, x: Action, t: seq<Action>, ks: set<Kind>)
    requires Within(s, ks) && KindOf(x) in ks && Within(t, ks)
    ensures Within(s + [x] + t, ks)
  {
    WithinConcat(s, [x], ks);
    WithinConcat(s + [x], t, ks);
  }

  lemma WithinWiden(t: seq<Action>, ks: set<Kind>, wider: set<Kind>)
    requires Within(t, ks) && ks <= wider
    ensures Within(t, wider)
  {
  }
}

=== FILE: wrappers.dfy ===
/** Optional values, used wherever the client returns `None` or a value. */
module Wrappers {

  datatype Option<+T> = None | Some(value: T) {

    /** The encapsulated value, or `default` when there is none. */
    function GetOr(default: T): T {
      match this
      case Some(v) => v
      case None => default
    }
  }
}

=== FILE: write.dfy ===
/**
 * The Control Point write retry of `get_status`: up to three writes; a Bleak
 * error before the last attempt is followed by a backoff and a connection
 * check, any other error is re-raised at once.
 */
module WriteRetry {
  import opened Codec
  import opened Trace

  /** What one write attempt observes. */
  datatype WriteOutcome =
    | Written                                 // the write returned
    | BleakFailure(connectedAfterBackoff: bool) // BleakError; the link state seen after the backoff
    | OtherFailure                            // any other exception

  datatype WriteRun = WriteRun(sent: bool, trace: seq<Action>, writes: nat)

  const MaxWriteRetries: nat := 3

  /** Write `k` is reached: every earlier write raised a Bleak error and the link stayed up. */
  predicate Reaches(outcomes: seq<WriteOutcome>, k: nat)
    requires k <= |outcomes|
  {
    forall j :: 0 <= j < k ==> outcomes[j].BleakFailure? && outcomes[j].connectedAfterBackoff
  }

  function WriteFrom(request: Request, k: nat, outcomes: seq<WriteOutcome>): (r: WriteRun)
    requires k < MaxWriteRetries <= |outcomes|
    ensures 1 <= r.writes <= MaxWriteRetries - k
    ensures forall j :: k <= j < k + r.writes - 1 ==> outcomes[j].BleakFailure? && outcomes[j].connectedAfterBackoff
    ensures r.sent <==> outcomes[k + r.writes - 1].Written?
    ensures outcomes[k + r.writes - 1].BleakFailure? ==>
      !outcomes[k + r.writes - 1].connectedAfterBackoff || k + r.writes == MaxWriteRetries
    decreases MaxWriteRetries - k
  {
    var w := [Write(request)];
    match outcomes[k]
    case Written => WriteRun(true, w, 1)
    case OtherFailure => WriteRun(false, w, 1)
    case BleakFailure(connected) =>
      if k == MaxWriteRetries - 1 || !connected then
        WriteRun(false, if k < MaxWriteRetries - 1 then w + [Backoff] else w, 1)
      else
        var rest := WriteFrom(request, k + 1, outcomes);
        WriteRun(rest.sent, w + [Backoff] + rest.trace, rest.writes + 1)
  }

  /** The write loop of get_status; `sent` false means it raised. */
  function WriteWithRetry(request: Request, outcomes: seq<WriteOutcome>): (r: WriteRun)
    requires MaxWriteRetries <= |outcomes|
    ensures 1 <= r.writes <= MaxWriteRetries
    ensures Reaches(outcomes, r.writes - 1)
    ensures r.sent <==> outcomes[r.writes - 1].Written?
    ensures outcomes[r.writes - 1].BleakFailure? ==>
      !outcomes[r.writes - 1].connectedAfterBackoff || r.writes == MaxWriteRetries
  {
    WriteFrom(request, 0, outcomes)
  }

  /**
   * The write succeeds exactly when some write within the bound returns and
   * is reached; it stops at the first write that returns.
   */
  lemma SentIff(request: Request, outcomes: seq<WriteOutcome>)
    requires MaxWriteRetries <= |outcomes|
    ensures var r := WriteWithRetry(request, outcomes);
      r.sent <==> exists k :: 0 <= k < MaxWriteRetries && Reaches(outcomes, k) && outcomes[k].Written?
  {

  }

  /** A non-Bleak error is re-raised at once: no further write is attempted. */
  lemma OtherFailureIsNotRetried(request: Request, outcomes: seq<WriteOutcome>, k: nat)
    requires k < MaxWriteRetries <= |outcomes|
    requires Reaches(outcomes, k) && outcomes[k].OtherFailure?
    ensures !WriteWithRetry(request, outcomes).sent
    ensures WriteWithRetry(request, outcomes).writes == k + 1
  {

  }

  /** A Bleak error after which the link is found down aborts the loop. */
  lemma DisconnectAbortsRetry(request: Request, outcomes: seq<WriteOutcome>, k: nat)
    requires k < MaxWriteRetries - 1 && MaxWriteRetries <= |outcomes|
    requires Reaches(outcomes, k) && outcomes[k] == BleakFailure(false)
    ensures !WriteWithRetry(request, outcomes).sent
    ensures WriteWithRetry(request, outcomes).writes == k + 1
  {

  }

  lemma {:induction false} WriteFromTrace(request: Request, k: nat, outcomes: seq<WriteOutcome>)
    requires k < MaxWriteRetries <= |outcomes|
    ensures Count(WriteFrom(request, k, outcomes).trace, Write(request)) == WriteFrom(request, k, outcomes).writes
    decreases MaxWriteRetries - k
  {
    var w := [Write(request)];
    if outcomes[k].BleakFailure? && k < MaxWriteRetries - 1 {
      if outcomes[k].connectedAfterBackoff {
        var rest := WriteFrom(request, k + 1, outcomes);
        WriteFromTrace(request, k + 1, outcomes);
        assert w + [Backoff] + rest.trace == w + ([Backoff] + rest.trace);
        CountAppend(w, [Backoff] + rest.trace, Write(request));
        CountAppend([Backoff], rest.trace, Write(request));
      } else {
        CountAppend(w, [Backoff], Write(request));
      }
    }
  }

  /** Every write the loop counts is a write of the request, at most three of them. */
  lemma WriteTrace(request: Request, outcomes: seq<WriteOutcome>)
    requires MaxWriteRetries <= |outcomes|
    ensures Count(WriteWithRetry(request, outcomes).trace, Write(request)) == WriteWithRetry(request, outcomes).writes <= MaxWriteRetries
  {
    WriteFromTrace(request, 0, outcomes);
  }

  /** The write loop only writes and backs off. */
  lemma {:induction false} WriteFromKinds(request: Request, k: nat, outcomes: seq<WriteOutcome>)
    requires k < MaxWriteRetries <= |outcomes|
    ensures Within(WriteFrom(request, k, outcomes).trace, WriteKinds)
    decreases MaxWriteRetries - k
  {
    if outcomes[k].BleakFailure? && k < MaxWriteRetries - 1 && outcomes[k].connectedAfterBackoff {
      WriteFromKinds(request, k + 1, outcomes);
    }
  }

  lemma WriteKindsOnly(request: Request, outcomes: seq<WriteOutcome>)
    requires MaxWriteRetries <= |outcomes|
    ensures Within(WriteWithRetry(request, outcomes).trace, WriteKinds)
  {
    WriteFromKinds(request, 0, outcomes);
  }
}
